=== FILE: README.md ===
# glslu shader-program façade, modelled in Dafny

This project models `glslu::Program`, the shader-program façade of the
repository. The façade turns shader source files into a linked OpenGL program
object. It caches uniform locations by name and reports the program's active
resources. The model covers five pieces:

- **Stage-extension resolution** (`Extensions`). The extension is the text
  from the last `.` of the file name. A fixed, first-match table maps it to a
  stage. When no row matches, the error lists all ten accepted extensions.
- **Program lifecycle** (`Programs`). `compileShader(filename)`,
  `compileShader(filename, type)`, `compileShaderSource`, `link`, `validate`
  and `use` are pure transitions over an immutable `Program` value. That value
  holds the program handle, the `linked` flag, the uniform-location cache and
  the attached stage objects. Each transition returns the next state, a
  `Result` (success or the raised error) and the driver commands it issued. A
  failure can carry a changed state. For example, the program object is
  created before a file that fails to open is reported.
- **Uniform-location cache and setters** (`Uniforms`). `getUniformLocation`
  memoises name→location, including -1. Every `setUniform` overload is that
  lookup plus exactly one write, through the entry point that matches the
  value's shape.
- **Introspection** (`Introspection`). The type-name table with its `"???"`
  default, and the line structure of the three reports. Those reports are the
  active uniforms (block members skipped), the uniform blocks, and the active
  vertex inputs. The resources are the ones listed by the program interface
  queries of section 7.3.1 of the OpenGL 4.4 core profile specification.
- **Whole-lifetime properties** (`Lifecycle`). One invariant holds for every
  request sequence: a linked program has a positive handle, stages only
  accumulate, and a positive handle never changes. Scenario lemmas cover
  compile/compile/link/use, a missing file, a file that fails to open after
  the probe, and relinking.

The OpenGL driver is an oracle (`Backend.Driver`). It gives the answers for one
operation: the names it hands out, the compile, link and validate statuses, the
info log (its reported length and its full text, of which the façade reads
what fits in a buffer of that length, up to the first NUL) and the location of each uniform
name. The file system is a `FileState` for the named file. It is `Missing`
when opening the file for reading fails, whether the file is absent or merely
unreadable (the existence probe, `glslu.cpp:97`). It is `Unreadable` when
that probe succeeded but the later open for reading failed
(`glslu.cpp:195-197`), for instance because the file changed in between. It
is `Readable` with the file's contents otherwise. The commands the façade issues are
recorded as a `seq<Call>`. That record is what lets the model state "at most
one location query per name".

The program handle is an `int`, as in the source (`glslu.hpp:33`). The
`GLuint` from program creation is narrowed to 32-bit two's complement when it
is stored (`ToGLint`). Every test is written the way the source writes it:
`handle <= 0` for "create a program object" and "not initialised", and
`handle == 0` for "creation failed".

## Behaviour of the code worth knowing

- Relinking. `link` empties the location cache only when it links a program
  that was not linked yet (`glslu.cpp:310-311`). It returns at once when
  `linked` is already true (`glslu.cpp:274`), and no operation ever sets
  `linked` back to false. So compiling another stage after a link and calling
  `link` again leaves the cache as it was
  (`Lifecycle.RelinkKeepsCachedLocations`).
- The NONE marker of the uniform report is written when the raw
  active-uniform count is ≤ 0 (`glslu.cpp:468`). It does not depend on how
  many plain uniforms are then listed. When every uniform belongs to a block,
  the flat report is just its title (`Introspection.AllInBlocksLeavesTitleOnly`).
- `validate` checks only `linked`, not the handle (`glslu.cpp:320`).
- A program name of 2^31 or more is stored as a negative handle. Then
  `compileShader(filename, type)` creates a program object (`glslu.cpp:187-188`)
  and `compileShaderSource` creates another one (`glslu.cpp:220-221`), because
  the handle is still not positive (`Programs.CompileFileCommands`). The
  operation ends with the second name, and fails to create a program when
  that second name is 0, although the first creation succeeded
  (`Programs.NegativeNameCreatesAgain`).

## Model

| member | source | states |
|---|---|---|
| `Extensions.Extension` | src/glslu.cpp:107-115 | The result is "" exactly when the name has no '.'. Otherwise it is the suffix of the name that starts with a '.' and contains no further '.', so the dot is kept and it starts at the last '.' |
| `Extensions.ExtensionUnique` | src/glslu.cpp:107-115 | Only one suffix starts with '.' and has no other '.', so `Extension` is fully determined by that description |
| `Extensions.ExtensionOfAppend` | src/glslu.cpp:107-115 | Appending an extension (a '.' followed by dot-free text) to any stem and extracting the extension gives back exactly what was appended |
| `Extensions.LookupFrom` | src/glslu.cpp:147-154 | First-match lookup. The result is None exactly when no row from `i` on has the extension. Otherwise it is the stage of the earliest matching row |
| `Extensions.LookupIsDocumented` | src/glslu.cpp:32-43 | For every string, the table lookup equals the documented assignment: .vs/.vert→vertex, .fs/.frag→fragment, .gs/.geom→geometry, .tcs→tess-control, .tes→tess-evaluation, .cs/.comp→compute, anything else→none |
| `Extensions.TableDistinct` | src/glslu.cpp:32-43 | No extension occurs twice in the table, so first match is the only match |
| `Extensions.ExpectedListText` | src/glslu.cpp:160-164 | The "Expected:" list is the ten extensions in table order, separated by ", " with no leading separator |
| `Extensions.CodeDistinguishesStages` | src/glslu.hpp:14-22 | Distinct stages have distinct OpenGL enumerants, so the type of a created stage object identifies its stage |
| `Programs.UnrecognizedExtensionMessage` | src/glslu.cpp:157-167 | The unrecognised-extension message names the extension in quotes, then a newline and a tab, then "Expected: " followed by all ten extensions |
| `Programs.CompileErrorMessage` | src/glslu.cpp:258-266 | The compile error message is `"<file name>" could not be compiled!` (or `Shader could not be compiled!` when the name is empty), then a newline, then the driver log verbatim. The file name and the log can be read back from the message |
| `Programs.Error.Message` | src/glslu.cpp:259-266 | Every message that carries the driver's log (the compile error here, the link error at `glslu.cpp:305-306`, the validation error at `glslu.cpp:347-348`) ends with a newline followed by that log, verbatim. The other message texts are those of `glslu.cpp:160-164`, `181`, `191`, `200`, `276`, `321` |
| `Programs.FileNotFoundMessage` | src/glslu.cpp:181 | The missing-file message quotes the file name right after "Could not find shader " |
| `Programs.AccessDeniedMessage` | src/glslu.cpp:200 | The access-denied message quotes the file name right after "Could not open " |
| `Programs.LinkErrorMessage` | src/glslu.cpp:305-306 | The link error writes the handle in decimal between "Could not link Program[" and "]". Reading those characters back gives the handle, sign included |
| `Programs.CompileFailureEndsWithInfoLog` | src/glslu.cpp:241-266 | A failed compile, other than a failed program creation, ends its message with a newline and the driver's info log. When the driver reports a log length ≤ 0, the message ends with the newline |
| `Programs.LinkFailureEndsWithInfoLog` | src/glslu.cpp:286-309 | A failed link of an existing program ends its message with a newline and the driver's info log. When the reported log length is ≤ 0, it ends with the newline |
| `Programs.ValidateFailureEndsWithInfoLog` | src/glslu.cpp:330-350 | A failed validation of a linked program ends its message with a newline and the driver's info log. When the reported log length is ≤ 0, it ends with the newline |
| `Programs.EnsureProgram` | src/glslu.cpp:186-192 | A program object is created only when the handle is not positive. Creation fails (handle 0, `ProgramCreationFailed`) exactly when the driver hands out name 0. Nothing else in the state changes |
| `Programs.CompileShaderSource` | src/glslu.cpp:216-269 | Creation follows `EnsureProgram`. `linked` and the cache are never touched. It succeeds exactly when a program object exists or was created and the driver compiles the source. A failure keeps the stages and raises `ProgramCreationFailed` or `CompileError` with the label and the driver log. A success adds the new stage object to the stages, so the stage count grows by exactly one when that name was not attached yet |
| `Programs.CompileSourceCreatesProgram` | src/glslu.cpp:219-225 | A program object is created only when the handle is not positive, and then as the first command. When that creation fails, it is the only command |
| `Programs.CompileSourceCreatesStage` | src/glslu.cpp:227-228 | Once a program object exists, exactly one stage object is created, and its type is the requested stage's enumerant. When program creation fails, no stage object is created |
| `Programs.CompileFailureAttachesNothing` | src/glslu.cpp:219-266 | A failed compile issues no attach command. When the compilation itself fails, the commands are the program creation (when the handle was not positive) and the stage creation, then handing over the source, then compiling it, in that order and nothing else |
| `Programs.CompileSuccessAttachesLast` | src/glslu.cpp:219-268 | A successful compile issues exactly four commands, or five when it created the program object. The last three are: hand the source to the new stage object, compile it, and attach it to the program. No attach comes before the last command |
| `Programs.CompileShaderFile` | src/glslu.cpp:174-213 | A missing file fails with `FileNotFound`, with no state change and no commands. A file whose open for reading fails after the probe succeeded raises `AccessDenied` after the program object was created, and only that creation is issued. A readable file gives the same state and result as compiling its contents, where the compilation's own program creation, when a negative handle forces one, gets the driver's second name. The final handle of a newly created program is therefore the first name, or the second when the first narrows to a negative handle |
| `Programs.CompileFileCommands` | src/glslu.cpp:186-212 | For a readable file, the commands are those of compiling its contents. When the new program name narrows to a negative handle, one extra program creation comes first, because the compilation creates the program object again |
| `Programs.CompileFileCreatesStage` | src/glslu.cpp:174-228 | Exactly one stage object, of the requested stage, is created when the file is readable and the operation obtains a program object: one existed, or the first name is below 2^31 and non-zero, or it narrows to a negative handle and the second name is non-zero. In every other case none is created |
| `Programs.NegativeNameCreatesAgain` | src/glslu.cpp:186-224 | When no program object exists and the first name narrows to a negative handle, a readable file's compilation starts with two program creations. It ends with the second name as its handle, and fails with `ProgramCreationFailed` exactly when that second name is 0, in which case nothing else is issued |
| `Programs.CompileShader` | src/glslu.cpp:137-171 | Compiling by extension never changes `linked` or the cache, never drops a stage and keeps a positive handle. An extension the table does not know fails with no state change and no commands. A known one compiles the file as the looked-up stage |
| `Programs.CompileByExtension` | src/glslu.cpp:140-170 | Any name ending in a documented extension is compiled as that extension's stage. When the file is readable and the operation obtains a program object, the one stage object created has that stage's enumerant |
| `Programs.UnrecognizedLeavesProgram` | src/glslu.cpp:156-167 | An undocumented extension fails with `UnrecognizedExtension`, leaves the program unchanged and issues no commands |
| `Programs.Link` | src/glslu.cpp:271-314 | When already linked, it is a no-op with no commands. Otherwise a non-positive handle fails with `NotInitialized`. A failed link leaves the state untouched and raises `LinkError` with the log. A successful link sets `linked` and empties the cache. The handle and stages never change |
| `Programs.Validate` | src/glslu.cpp:317-352 | The state never changes. It fails with `NotLinked` (no commands) unless linked. It succeeds exactly when linked and the driver validates. Otherwise it raises `ValidationError` with the log |
| `Programs.Use` | src/glslu.cpp:355-364 | The state never changes. `NotInitialized` (handle ≤ 0) is checked before `NotLinked`. Only when both checks pass is a single activation command issued |
| `Uniforms.GetUniformLocation` | src/glslu.cpp:81-91 | A cache hit returns the cached value (including -1) with no driver query and no state change. A miss queries exactly once and stores the answer. Afterwards the name is cached and every other entry is unchanged |
| `Uniforms.WriteFor` | src/glslu.cpp:372-451 | The write uploads as many components as the value holds (1 for scalars, n for n-tuples and vectors, 9 and 16 for 3×3 and 4×4 matrices). Exactly the bool, int and unsigned values use an integer entry point. The integer payload arrives unchanged, a bool as 1 or 0. No matrix is transposed |
| `Uniforms.ShapeDeterminesWrite` | src/glslu.cpp:372-451 | Those shape facts admit only one write, so they describe the setter's entry point completely |
| `Uniforms.SetUniform` | src/glslu.cpp:372-451 | A setter is a cached lookup followed by exactly one write at the looked-up location. Its state is the lookup's state |
| `Uniforms.SetUniforms` | src/glslu.cpp:372-451 | A run of setters never changes the handle, the `linked` flag or the stages |
| `Uniforms.QueryCountOfSet` | src/glslu.cpp:81-91 | One setter queries a name exactly when it sets that name and the name was not cached |
| `Uniforms.AtMostOneQueryPerName` | src/glslu.cpp:81-91 | Over any run of setters, each name is queried at most once. It is queried exactly once when the name is set and was not cached, a cached -1 included. Afterwards the name is cached exactly when it was cached before or was set |
| `Uniforms.SecondSetReusesCache` | src/glslu.cpp:81-91 | Two setters on the same name issue at most one location query. The second write reuses the first lookup's location |
| `Introspection.TypeStringMatchesTable` | src/glslu.cpp:118-134 | The type-name switch agrees with the 11-row table. Every code outside the table renders as "???", and no listed type is named "???" |
| `Introspection.TypeStringInjective` | src/glslu.cpp:118-134 | Distinct known type codes get distinct names |
| `Introspection.PlainUniformLines` | src/glslu.cpp:471-488 | Every listed line comes from a uniform with block index -1. Every such uniform is listed. Block members never are |
| `Introspection.ActiveUniforms` | src/glslu.cpp:454-492 | The report starts with its title. It holds the NONE marker exactly when the uniform count is 0. Every other line is a plain uniform, and every plain uniform has a line |
| `Introspection.AllInBlocksLeavesTitleOnly` | src/glslu.cpp:468-489 | When every uniform belongs to a block, the flat report is the title alone, without NONE |
| `Introspection.ActiveUniformBlocks` | src/glslu.cpp:495-557 | The report starts with its title. With no blocks, it is the title and NONE. Otherwise it has one line for the title plus, for each block, one title line and one line per member |
| `Introspection.UniformBlocksLayout` | src/glslu.cpp:514-550 | In the report, block `b`'s title line is followed directly by that block's own member lines. This group starts where the groups of the earlier blocks end and ends where block `b + 1`'s group starts |
| `Introspection.UniformBlocksEnd` | src/glslu.cpp:514-554 | The last block's group, and only that one, ends the report, so the groups in block order fill the report exactly |
| `Introspection.BlockGroupParts` | src/glslu.cpp:527-547 | A block's group is its title line, then one line per member in member order, each naming the uniform's index, its position in the block, its name and its type name |
| `Introspection.BlockLinesLayout` | src/glslu.cpp:514-550 | Among the block lines, block `b`'s group sits at the offset given by the sizes of the earlier groups |
| `Introspection.BlockLinesHaveNoMarker` | src/glslu.cpp:512-554 | The lines listing the blocks never contain NONE |
| `Introspection.UniformBlocksNoneIff` | src/glslu.cpp:508-511 | The block report holds NONE exactly when there are no blocks |
| `Introspection.BlockMemberListed` | src/glslu.cpp:514-550 | Every block's title is listed, and every member of every block is listed with its index in the block |
| `Introspection.FlatReportOmitsBlockMember` | src/glslu.cpp:477-478 | No line of the flat uniform report names a uniform whose block index is not -1 |
| `Introspection.BlockMemberOnlyInBlockReport` | src/glslu.cpp:478 | A uniform inside a block appears in the block report and never in the flat uniform report |
| `Introspection.ActiveAttribs` | src/glslu.cpp:560-593 | The report starts with its title. It holds NONE exactly when there are no inputs. Otherwise it has one line per input, in interface order |
| `Backend.ToGLint` | src/glslu.cpp:188 | Storing a `GLuint` in the `int` handle is 32-bit two's-complement narrowing. It is zero exactly for name 0 and positive exactly for names below 2^31 |
| `Backend.Driver.InfoLog` | src/glslu.cpp:245-256 | The log the façade reads: empty when the reported length is ≤ 0; otherwise shorter than the reported length (the buffer holds the terminating NUL), a prefix of the driver's log text with no NUL in it, and cut short of the buffer only at a NUL of the driver's text |
| `Backend.CString` | src/glslu.cpp:253 | Reading a buffer of at most `cap` characters as a C string gives a NUL-free prefix of the text, no longer than `cap`, that stops early only at a NUL |
| `Text.IntToString` | src/glslu.cpp:305 | The handle in the link error is written in canonical decimal: a '-' only for negative values, digits that read back to the value, and no leading zero except for 0 itself |
| `Lifecycle.RunPreserves` | src/glslu.cpp:271-314 | From any consistent state, every sequence of requests keeps "linked implies a positive handle". Attached stages only accumulate, and a positive handle never changes |
| `Lifecycle.ApplyPreserves` | src/glslu.cpp:186-192 | A single request keeps the state consistent, drops no stage and keeps a positive handle |
| `Lifecycle.LinkBeforeCompileFails` | src/glslu.cpp:275-276 | On a fresh program, both `link` and `use` fail with `NotInitialized` |
| `Lifecycle.CompileCompileLink` | src/glslu.cpp:216-314 | Compiling a vertex and a fragment stage and then linking gives a linked program with a positive handle and both stages. `use` before the link fails with `NotLinked`; after it, `use` succeeds |
| `Lifecycle.MissingFileCreatesNothing` | src/glslu.cpp:177-184 | A missing file with a known extension fails with `FileNotFound`, leaves the state unchanged and issues no commands |
| `Lifecycle.AccessDeniedAfterCreation` | src/glslu.cpp:186-203 | A file whose probe succeeded but whose open for reading fails is reported as `AccessDenied` only after the program handle was created. No stage is added |
| `Lifecycle.RelinkKeepsCachedLocations` | src/glslu.cpp:274 | Once linked, compiling another stage and linking again issues no link command and keeps the cache. A previously cached name is answered from the cache without a query |
| `Lifecycle.FailedLinkKeepsCache` | src/glslu.cpp:286-309 | A failed link leaves `linked` false and the cache untouched |
| `Lifecycle.FirstLinkForcesQuery` | src/glslu.cpp:310-313 | After a first successful link, a lookup queries the driver again |

## Left out

- Real OpenGL calls. The driver is an oracle record. Status queries (`GetShaderiv`, `GetProgramiv`) and log reads are folded into its answers and are not recorded as commands. Within one operation the driver hands out at most two program names (`createProgram`, then `createProgramAgain` for the creation repeated inside a file compilation).
- File I/O. The existence probe (`fopen`, `glslu.cpp:97`) and the read through `ifstream` (`glslu.cpp:195-209`) are abstracted into `FileState`. A file the probe cannot open, present or not, is `Missing`. `Unreadable` covers the file that changed between the probe and the later open.
- The destructor (`glslu.cpp:51-72`). It only queries the attached stages and deletes GL objects.
- Stage objects of failed compiles are never deleted by the source. The model does not track them beyond the commands issued.
- Floating-point payloads of the float, vector and matrix `setUniform` overloads. Only the cache lookup, the entry point and the transpose flag are kept.
- `bindAttribLocation` and `bindFragDataLocation`. They are one-line pass-throughs to the driver.
- The `getHandle` and `isLinked` accessors. They are the `handle` and `linked` fields of `Program`.
- Report text formatting: `setw(5)` padding, punctuation, and name buffers sized from the reported name length. Reports are sequences of structured lines.
- `src/GLSLUtilities.hpp`, a stale duplicate header with no implementation, and `src/main.cpp`, the window bootstrap.
- Copy suppression (`glslu.hpp:43-44`). `Program` is an immutable value owned by whoever holds it.
- Concurrency and the context-wide "current program" slot. Only the activation command is recorded.
- Introspection.PlainUniformLines: states which uniforms are listed, not their relative order, which the source keeps as interface order.
- Introspection.ActiveUniforms: like `PlainUniformLines`, it states membership of the listed uniforms, not their order.
- Introspection.ActiveUniformBlocks: requires every block member index to be a valid uniform index. The source does not check this; it relies on the driver, which section 7.3.1 of the OpenGL 4.4 core profile specification obliges to return active uniform indices.
- Introspection.ActiveAttribs: assumes the active-input count query writes its result. `attributeCount` is left uninitialised (`glslu.cpp:565`), unlike the uniform and block counts, which start at 0 (`glslu.cpp:459`, `glslu.cpp:500`). If the driver wrote nothing, the source would read an indeterminate value.
- Introspection.FlatReportOmitsBlockMember: assumes uniform names are unique within the uniform interface, as the OpenGL specification guarantees.
- Introspection.BlockMemberOnlyInBlockReport: assumes uniform names are unique within the uniform interface, as the OpenGL specification guarantees.

=== FILE: backend.dfy ===
/**
 * The graphics driver and the file system as the program façade sees them:
 * the answers they give to one operation, and the commands it issues to them.
 */
module Backend {

  /** An OpenGL `GLuint` object name. */
  type GLuint = x: int | 0 <= x < 0x1_0000_0000

  /**
   * The `int` a `GLuint` becomes when stored in the façade's `int handle`
   * (two's-complement narrowing to 32 bits).
   */
  function ToGLint(u: GLuint): (r: int)
    ensures -0x8000_0000 <= r < 0x8000_0000
    ensures r % 0x1_0000_0000 == u
    ensures r == 0 <==> u == 0
    ensures r > 0 <==> 0 < u < 0x8000_0000
  {
    if u < 0x8000_0000 then u else u - 0x1_0000_0000
  }

  /** What opening a named file yields. */
  datatype FileState =
    | Missing                       // opening it for reading fails, whether absent or unreadable
    | Unreadable                    // that open succeeded, but a later open for reading fails
    | Readable(contents: string)    // its full text, verbatim

  /**
   * The driver's answers during one façade operation: the names it hands out,
   * the statuses it reports, the info log (its reported length and text), and
   * the location it reports for each uniform name. An operation creates a
   * program object at most twice; `createProgram` names the first and
   * `createProgramAgain` the second, since the driver never hands out the
   * name of a program object that is still live.
   */
  datatype Driver = Driver(
    createProgram: GLuint,
    createProgramAgain: GLuint,
    createShader: GLuint,
    compileStatus: bool,
    linkStatus: bool,
    validateStatus: bool,
    logLength: int,
    logText: string,
    locate: string -> int)
  {
    /**
     * The info log as the façade reads it: nothing unless the reported length
     * is positive; otherwise the driver fills a buffer of that length with at
     * most `logLength - 1` characters of its log and a terminating NUL, and
     * the façade keeps the text up to the first NUL.
     */
    function InfoLog(): (log: string)
      ensures logLength <= 0 ==> log == ""
      ensures logLength > 0 ==> |log| < logLength
      ensures log <= logText
      ensures forall i | 0 <= i < |log| :: log[i] != '\0'
      ensures 0 < logLength && |log| + 1 < logLength && |log| < |logText| ==> logText[|log|] == '\0'
    {
      if logLength > 0 then CString(logText, logLength - 1) else ""
    }
  }

  /**
   * The C string a buffer holding at most `cap` characters of `s` (then a
   * NUL) reads as: the longest prefix of `s` of at most `cap` characters
   * that contains no NUL.
   */
  function CString(s: string, cap: nat): (r: string)
    ensures |r| <= cap
    ensures r <= s
    ensures forall i | 0 <= i < |r| :: r[i] != '\0'
    ensures |r| < cap && |r| < |s| ==> s[|r|] == '\0'
    decreases cap
  {
    if cap == 0 || |s| == 0 || s[0] == '\0' then ""
    else [s[0]] + CString(s[1..], cap - 1)
  }

  /** The uniform-write entry point a setter ends in, with its integer payload. */
  datatype UniformWrite =
    | Uniform1i(value: int)
    | Uniform1ui(uvalue: GLuint)
    | Uniform1f
    | Uniform2f
    | Uniform3f
    | Uniform4f
    | UniformMatrix3fv(transpose: bool)
    | UniformMatrix4fv(transpose: bool)

  /** A command the façade issues to the driver. */
  datatype Call =
    | GlCreateProgram
    | GlCreateShader(shaderType: int)      // the stage's OpenGL enumerant
    | GlShaderSource(shader: GLuint, source: string)
    | GlCompileShader(shader: GLuint)
    | GlAttachShader(program: int, shader: GLuint)
    | GlLinkProgram(program: int)
    | GlValidateProgram(program: int)
    | GlUseProgram(program: int)
    | GlGetUniformLocation(program: int, name: string)
    | GlUniform(location: int, write: UniformWrite)
}

=== FILE: extensions.dfy ===
/**
 * Stage-extension resolution: the text after the last '.' of a shader file
 * name selects its pipeline stage through a fixed first-match table.
 */
module Extensions {
  import opened Wrappers
  import opened Text

  /** The pipeline stages a shader file can hold (`glslu::ShaderType`). */
  datatype ShaderType = Vertex | Fragment | Geometry | TessControl | TessEvaluation | Compute {
    /** The OpenGL enumerant each stage is defined as. */
    function Code(): int {
      match this
      case Vertex => 0x8B31
      case Fragment => 0x8B30
      case Geometry => 0x8DD9
      case TessControl => 0x8E88
      case TessEvaluation => 0x8E87
      case Compute => 0x91B9
    }
  }

  /** Distinct stages are distinct OpenGL enumerants, so a created stage object's type names its stage. */
  lemma CodeDistinguishesStages(a: ShaderType, b: ShaderType)
    ensures a.Code() == b.Code() <==> a == b
  {
  }

  /** One row of the extension table. */
  datatype Entry = Entry(extension: string, stage: ShaderType)

  /** The extension table, in declaration order. */
  const Table: seq<Entry> := [
    Entry(".vs", Vertex),
    Entry(".vert", Vertex),
    Entry(".fs", Fragment),
    Entry(".frag", Fragment),
    Entry(".gs", Geometry),
    Entry(".geom", Geometry),
    Entry(".tcs", TessControl),
    Entry(".tes", TessEvaluation),
    Entry(".cs", Compute),
    Entry(".comp", Compute)
  ]

  /**
   * The extension of a file name: the suffix starting at its last '.', the
   * dot included, or "" when the name has no '.' at all.
   */
  function Extension(filename: string): (r: string)
    ensures '.' !in filename ==> r == ""
    ensures '.' in filename ==>
      && 1 <= |r| <= |filename|
      && r == filename[|filename| - |r|..]
      && r[0] == '.'
      && '.' !in r[1..]
    decreases |filename|
  {
    if |filename| == 0 then ""
    else
      var last := filename[|filename| - 1];
      var init := filename[..|filename| - 1];
      assert filename == init + [last];
      if last == '.' then "."
      else
        var e := Extension(init);
        if e == "" then "" else e + [last]
  }

  /** At most one suffix of a name starts with a '.' and contains no other '.'. */
  lemma ExtensionUnique(filename: string, e: string)
    requires 1 <= |e| <= |filename| && e == filename[|filename| - |e|..]
    requires e[0] == '.' && '.' !in e[1..]
    ensures Extension(filename) == e
  {
  }

  /** Appending an extension to a name recovers exactly that extension. */
  lemma ExtensionOfAppend(stem: string, ext: string)
    requires |ext| >= 1 && ext[0] == '.' && '.' !in ext[1..]
    ensures Extension(stem + ext) == ext
  {
    var f := stem + ext;
    assert f[|f| - |ext|..] == ext;
    ExtensionUnique(f, ext);
  }

  /** The first table row at or after `i` whose extension is `ext`. */
  function LookupFrom(ext: string, i: nat): (r: Option<ShaderType>)
    requires i <= |Table|
    ensures r.None? <==> forall j | i <= j < |Table| :: Table[j].extension != ext
    ensures r.Some? ==> exists j | i <= j < |Table| ::
      && Table[j].extension == ext
      && Table[j].stage == r.value
      && forall k | i <= k < j :: Table[k].extension != ext
    decreases |Table| - i
  {
    if i == |Table| then None
    else if Table[i].extension == ext then Some(Table[i].stage)
    else LookupFrom(ext, i + 1)
  }

  /** First-match lookup of an extension in the table. */
  function Lookup(ext: string): Option<ShaderType> {
    LookupFrom(ext, 0)
  }

  /** The documented extension-to-stage assignment, stated case by case. */
  function DocumentedStage(ext: string): Option<ShaderType> {
    match ext
    case ".vs" => Some(Vertex)
    case ".vert" => Some(Vertex)
    case ".fs" => Some(Fragment)
    case ".frag" => Some(Fragment)
    case ".gs" => Some(Geometry)
    case ".geom" => Some(Geometry)
    case ".tcs" => Some(TessControl)
    case ".tes" => Some(TessEvaluation)
    case ".cs" => Some(Compute)
    case ".comp" => Some(Compute)
    case _ => None
  }

  /** The table lookup agrees with the documented assignment on every string. */
  lemma LookupIsDocumented(ext: string)
    ensures Lookup(ext) == DocumentedStage(ext)
  {
    if j :| 0 <= j < |Table| && Table[j].extension == ext {
      TableDistinct();
      DocumentedRows();
    } else {
      UndocumentedOutsideTable(ext);
    }
  }

  /** Every table row is documented with its own stage. */
  lemma DocumentedRows()
    ensures forall j | 0 <= j < |Table| :: DocumentedStage(Table[j].extension) == Some(Table[j].stage)
  {
  }

  /** A string that is no row's extension is undocumented. */
  lemma UndocumentedOutsideTable(ext: string)
    requires forall j | 0 <= j < |Table| :: Table[j].extension != ext
    ensures DocumentedStage(ext) == None
  {
    assert Table[0].extension == ".vs";
    assert Table[1].extension == ".vert";
    assert Table[2].extension == ".fs";
    assert Table[3].extension == ".frag";
    assert Table[4].extension == ".gs";
    assert Table[5].extension == ".geom";
    assert Table[6].extension == ".tcs";
    assert Table[7].extension == ".tes";
    assert Table[8].extension == ".cs";
    assert Table[9].extension == ".comp";
  }

  /** No extension occurs twice in the table, so first-match is the only match. */
  lemma TableDistinct()
    ensures forall a, b | 0 <= a < b < |Table| :: Table[a].extension != Table[b].extension
  {
  }

  /** Every table extension is a '.' followed by text without another '.'. */
  lemma TableRowsAreExtensions()
    ensures forall j | 0 <= j < |Table| ::
      |Table[j].extension| >= 1 && Table[j].extension[0] == '.' && '.' !in Table[j].extension[1..]
  {
  }

  /** The extensions in table order. */
  function AcceptedExtensions(): (r: seq<string>)
    ensures |r| == |Table|
    ensures forall i | 0 <= i < |r| :: r[i] == Table[i].extension
  {
    seq(|Table|, i requires 0 <= i < |Table| => Table[i].extension)
  }

  /** The "Expected:" list of the unrecognised-extension message. */
  function ExpectedList(): string {
    Join(AcceptedExtensions(), ", ")
  }

  /** The first five entries of the "Expected:" list. */
  lemma ExpectedListFirstHalf()
    ensures Join([".vs", ".vert", ".fs", ".frag", ".gs"], ", ") == ".vs, .vert, .fs, .frag, .gs"
  {
    var sep := ", ";
    assert Join([".vs"], sep) == ".vs" by {
      JoinSnoc([], ".vs", sep);
      assert [] + [".vs"] == [".vs"];
    }
    assert Join([".vs", ".vert"], sep) == ".vs, .vert" by {
      JoinSnoc([".vs"], ".vert", sep);
      assert [".vs"] + [".vert"] == [".vs", ".vert"];
    }
    assert Join([".vs", ".vert", ".fs"], sep) == ".vs, .vert, .fs" by {
      JoinSnoc([".vs", ".vert"], ".fs", sep);
      assert [".vs", ".vert"] + [".fs"] == [".vs", ".vert", ".fs"];
    }
    assert Join([".vs", ".vert", ".fs", ".frag"], sep) == ".vs, .vert, .fs, .frag" by {
      JoinSnoc([".vs", ".vert", ".fs"], ".frag", sep);
      assert [".vs", ".vert", ".fs"] + [".frag"] == [".vs", ".vert", ".fs", ".frag"];
    }
    assert Join([".vs", ".vert", ".fs", ".frag", ".gs"], sep) == ".vs, .vert, .fs, .frag, .gs" by {
      JoinSnoc([".vs", ".vert", ".fs", ".frag"], ".gs", sep);
      assert [".vs", ".vert", ".fs", ".frag"] + [".gs"] == [".vs", ".vert", ".fs", ".frag", ".gs"];
    }
  }

  /** The list names all ten extensions in table order, separated by ", ". */
  lemma ExpectedListText()
    ensures ExpectedList() == ".vs, .vert, .fs, .frag, .gs, .geom, .tcs, .tes, .cs, .comp"
  {
    var sep := ", ";
    ExpectedListFirstHalf();
    assert AcceptedExtensions() == [".vs", ".vert", ".fs", ".frag", ".gs", ".geom", ".tcs", ".tes", ".cs", ".comp"];
    assert Join([".vs", ".vert", ".fs", ".frag", ".gs", ".geom"], sep) == ".vs, .vert, .fs, .frag, .gs, .geom" by {
      JoinSnoc([".vs", ".vert", ".fs", ".frag", ".gs"], ".geom", sep);
      assert [".vs", ".vert", ".fs", ".frag", ".gs"] + [".geom"] == [".vs", ".vert", ".fs", ".frag", ".gs", ".geom"];
    }
    assert Join([".vs", ".vert", ".fs", ".frag", ".gs", ".geom", ".tcs"], sep) == ".vs, .vert, .fs, .frag, .gs, .geom, .tcs" by {
      JoinSnoc([".vs", ".vert", ".fs", ".frag", ".gs", ".geom"], ".tcs", sep);
      assert [".vs", ".vert", ".fs", ".frag", ".gs", ".geom"] + [".tcs"] == [".vs", ".vert", ".fs", ".frag", ".gs", ".geom", ".tcs"];
    }
    assert Join([".vs", ".vert", ".fs", ".frag", ".gs", ".geom", ".tcs", ".tes"], sep) == ".vs, .vert, .fs, .frag, .gs, .geom, .tcs, .tes" by {
      JoinSnoc([".vs", ".vert", ".fs", ".frag", ".gs", ".geom", ".tcs"], ".tes", sep);
      assert [".vs", ".vert", ".fs", ".frag", ".gs", ".geom", ".tcs"] + [".tes"] == [".vs", ".vert", ".fs", ".frag", ".gs", ".geom", ".tcs", ".tes"];
    }
    assert Join([".vs", ".vert", ".fs", ".frag", ".gs", ".geom", ".tcs", ".tes", ".cs"], sep) == ".vs, .vert, .fs, .frag, .gs, .geom, .tcs, .tes, .cs" by {
      JoinSnoc([".vs", ".vert", ".fs", ".frag", ".gs", ".geom", ".tcs", ".tes"], ".cs", sep);
      assert [".vs", ".vert", ".fs", ".frag", ".gs", ".geom", ".tcs", ".tes"] + [".cs"] == [".vs", ".vert", ".fs", ".frag", ".gs", ".geom", ".tcs", ".tes", ".cs"];
    }
    assert Join([".vs", ".vert", ".fs", ".frag", ".gs", ".geom", ".tcs", ".tes", ".cs", ".comp"], sep) == ".vs, .vert, .fs, .frag, .gs, .geom, .tcs, .tes, .cs, .comp" by {
      JoinSnoc([".vs", ".vert", ".fs", ".frag", ".gs", ".geom", ".tcs", ".tes", ".cs"], ".comp", sep);
      assert [".vs", ".vert", ".fs", ".frag", ".gs", ".geom", ".tcs", ".tes", ".cs"] + [".comp"] == [".vs", ".vert", ".fs", ".frag", ".gs", ".geom", ".tcs", ".tes", ".cs", ".comp"];
    }
  }
}

=== FILE: introspection.dfy ===
/**
 * Resource introspection: the three diagnostic reports over the program's
 * active uniforms, uniform blocks and vertex inputs, as listed by the program
 * interface queries of section 7.3.1 of the OpenGL 4.4 core profile
 * specification, and the type-name table the reports use.
 */
module Introspection {

  // The OpenGL type enumerants the type-name table knows.
  const GlFloat: int := 0x1406
  const GlFloatVec2: int := 0x8B50
  const GlFloatVec3: int := 0x8B51
  const GlFloatVec4: int := 0x8B52
  const GlDouble: int := 0x140A
  const GlInt: int := 0x1404
  const GlUnsignedInt: int := 0x1405
  const GlBool: int := 0x8B56
  const GlFloatMat2: int := 0x8B5A
  const GlFloatMat3: int := 0x8B5B
  const GlFloatMat4: int := 0x8B5C

  /** The name written for a type code absent from the table. */
  const Unknown: string := "???"

  /** The type-name table, in the order the source lists it. */
  const TypeNames: seq<(int, string)> := [
    (GlFloat, "float"),
    (GlFloatVec2, "vec2"),
    (GlFloatVec3, "vec3"),
    (GlFloatVec4, "vec4"),
    (GlDouble, "double"),
    (GlInt, "int"),
    (GlUnsignedInt, "unsigned int"),
    (GlBool, "boolean"),
    (GlFloatMat2, "mat2"),
    (GlFloatMat3, "mat3"),
    (GlFloatMat4, "mat4")
  ]

  /** `getTypeString`: total; unknown codes render as "???". */
  function TypeString(code: int): string {
    if code == GlFloat then "float"
    else if code == GlFloatVec2 then "vec2"
    else if code == GlFloatVec3 then "vec3"
    else if code == GlFloatVec4 then "vec4"
    else if code == GlDouble then "double"
    else if code == GlInt then "int"
    else if code == GlUnsignedInt then "unsigned int"
    else if code == GlBool then "boolean"
    else if code == GlFloatMat2 then "mat2"
    else if code == GlFloatMat3 then "mat3"
    else if code == GlFloatMat4 then "mat4"
    else Unknown
  }

  /**
   * The switch agrees with the table: a listed code gets its listed name, and
   * every other code gets "???", which is no listed name.
   */
  lemma TypeStringMatchesTable(code: int)
    ensures forall i | 0 <= i < |TypeNames| :: TypeString(TypeNames[i].0) == TypeNames[i].1
    ensures (forall i | 0 <= i < |TypeNames| :: TypeNames[i].0 != code) ==> TypeString(code) == Unknown
    ensures forall i | 0 <= i < |TypeNames| :: TypeNames[i].1 != Unknown
  {
    if forall i | 0 <= i < |TypeNames| :: TypeNames[i].0 != code {
      assert TypeNames[0].0 != code;
      assert TypeNames[1].0 != code;
      assert TypeNames[2].0 != code;
      assert TypeNames[3].0 != code;
      assert TypeNames[4].0 != code;
      assert TypeNames[5].0 != code;
      assert TypeNames[6].0 != code;
      assert TypeNames[7].0 != code;
      assert TypeNames[8].0 != code;
      assert TypeNames[9].0 != code;
      assert TypeNames[10].0 != code;
    }
  }

  /** Distinct listed codes get distinct names, so a name identifies its type. */
  lemma TypeStringInjective(a: int, b: int)
    requires TypeString(a) != Unknown && TypeString(a) == TypeString(b)
    ensures a == b
  {
  }

  /** An active uniform: name, type code, location, and enclosing block index (-1 for none). */
  datatype UniformResource = UniformResource(name: string, glType: int, location: int, blockIndex: int)

  /** An active uniform block: its name and the uniform indices of its members. */
  datatype BlockResource = BlockResource(name: string, members: seq<nat>)

  /** An active vertex input: name, type code and location. */
  datatype InputResource = InputResource(name: string, glType: int, location: int)

  /** The program's active resources, one sequence per program interface. */
  datatype Resources = Resources(
    uniforms: seq<UniformResource>,
    blocks: seq<BlockResource>,
    inputs: seq<InputResource>)

  /** Every block member is an index into the uniform interface, as the driver guarantees. */
  predicate MembersInRange(us: seq<UniformResource>, bs: seq<BlockResource>) {
    forall i, j | 0 <= i < |bs| && 0 <= j < |bs[i].members| :: bs[i].members[j] < |us|
  }

  /** One line of a report; padding and punctuation are not modelled. */
  datatype Line =
    | Title(text: string)
    | NoneMarker
    | UniformLine(location: int, name: string, typeName: string)
    | BlockTitle(blockName: string)
    | MemberLine(index: nat, local: nat, name: string, typeName: string)
    | InputLine(location: int, name: string, typeName: string)

  function UniformLineOf(u: UniformResource): Line {
    UniformLine(u.location, u.name, TypeString(u.glType))
  }

  /** The uniform lines of the flat report: block members are skipped. */
  function PlainUniformLines(us: seq<UniformResource>): (lines: seq<Line>)
    ensures |lines| <= |us|
    ensures forall l | l in lines :: exists k | 0 <= k < |us| :: us[k].blockIndex == -1 && l == UniformLineOf(us[k])
    ensures forall k | 0 <= k < |us| && us[k].blockIndex == -1 :: UniformLineOf(us[k]) in lines
    decreases |us|
  {
    if |us| == 0 then []
    else
      var rest := PlainUniformLines(us[1..]);
      assert forall k | 1 <= k < |us| :: us[k] == us[1..][k - 1];
      if us[0].blockIndex != -1 then rest else [UniformLineOf(us[0])] + rest
  }

  /** `getActiveUniforms`. */
  function ActiveUniforms(r: Resources): (lines: seq<Line>)
    ensures |lines| >= 1 && lines[0] == Title("Active Uniforms")
    ensures NoneMarker in lines <==> |r.uniforms| == 0
    ensures forall l | l in lines[1..] ::
      l == NoneMarker || exists k | 0 <= k < |r.uniforms| :: r.uniforms[k].blockIndex == -1 && l == UniformLineOf(r.uniforms[k])
    ensures forall k | 0 <= k < |r.uniforms| && r.uniforms[k].blockIndex == -1 :: UniformLineOf(r.uniforms[k]) in lines
  {
    var body := if |r.uniforms| <= 0 then [NoneMarker] else PlainUniformLines(r.uniforms);
    assert ([Title("Active Uniforms")] + body)[1..] == body;
    [Title("Active Uniforms")] + body
  }

  /** The lines listing one block's members, numbered within the block. */
  function MemberLines(us: seq<UniformResource>, members: seq<nat>): (lines: seq<Line>)
    requires forall j | 0 <= j < |members| :: members[j] < |us|
    ensures |lines| == |members|
    ensures forall j | 0 <= j < |members| ::
      lines[j] == MemberLine(members[j], j, us[members[j]].name, TypeString(us[members[j]].glType))
  {
    seq(|members|, j requires 0 <= j < |members| =>
      MemberLine(members[j], j, us[members[j]].name, TypeString(us[members[j]].glType)))
  }

  /** Each block's title followed by its member lines, block by block. */
  function BlockLines(us: seq<UniformResource>, bs: seq<BlockResource>): seq<Line>
    requires MembersInRange(us, bs)
    decreases |bs|
  {
    if |bs| == 0 then [] else BlockGroup(us, bs, 0) + BlockLines(us, bs[1..])
  }

  /**
   * Where block `b`'s title sits among the block lines: after the title and
   * member lines of every earlier block.
   */
  function BlockStart(bs: seq<BlockResource>, b: nat): nat
    requires b <= |bs|
    decreases b
  {
    if b == 0 then 0 else BlockStart(bs, b - 1) + 1 + |bs[b - 1].members|
  }

  lemma {:induction false} BlockStartShift(bs: seq<BlockResource>, b: nat)
    requires 1 <= b <= |bs|
    ensures BlockStart(bs, b) == 1 + |bs[0].members| + BlockStart(bs[1..], b - 1)
    decreases b
  {
    if b > 1 {
      BlockStartShift(bs, b - 1);
      assert bs[1..][b - 2] == bs[b - 1];
    }
  }

  /** The block lines hold each block's title and members and nothing more. */
  lemma {:induction false} BlockLinesLength(us: seq<UniformResource>, bs: seq<BlockResource>)
    requires MembersInRange(us, bs)
    ensures |BlockLines(us, bs)| == BlockStart(bs, |bs|)
    decreases |bs|
  {
    if |bs| > 0 {
      BlockLinesLength(us, bs[1..]);
      BlockStartShift(bs, |bs|);
    }
  }

  /** The lines block `b` contributes: its title, then its own members in order. */
  function BlockGroup(us: seq<UniformResource>, bs: seq<BlockResource>, b: nat): (g: seq<Line>)
    requires MembersInRange(us, bs)
    requires b < |bs|
    ensures |g| == 1 + |bs[b].members|
    ensures forall j | 0 <= j < |bs[b].members| :: bs[b].members[j] < |us|
  {
    assert forall j | 0 <= j < |bs[b].members| :: bs[b].members[j] < |us|;
    [BlockTitle(bs[b].name)] + MemberLines(us, bs[b].members)
  }

  /** A block's group is its title line followed by its own member lines. */
  lemma BlockGroupParts(us: seq<UniformResource>, bs: seq<BlockResource>, b: nat)
    requires MembersInRange(us, bs)
    requires b < |bs|
    ensures var g := BlockGroup(us, bs, b);
      g[0] == BlockTitle(bs[b].name) && g[1..] == MemberLines(us, bs[b].members)
  {
  }

  lemma ShiftedSlice(a: seq<Line>, c: seq<Line>, i: nat, j: nat)
    requires i <= j <= |c|
    ensures (a + c)[|a| + i..|a| + j] == c[i..j]
  {
  }

  /** Block `b`'s group of lines sits at `BlockStart(bs, b)` among the block lines. */
  lemma {:induction false} BlockLinesLayout(us: seq<UniformResource>, bs: seq<BlockResource>, b: nat)
    requires MembersInRange(us, bs)
    requires b < |bs|
    ensures var t := BlockStart(bs, b);
      && t + 1 + |bs[b].members| <= |BlockLines(us, bs)|
      && BlockLines(us, bs)[t..t + 1 + |bs[b].members|] == BlockGroup(us, bs, b)
    decreases b
  {
    var head := BlockGroup(us, bs, 0);
    var rest := BlockLines(us, bs[1..]);
    var lines := BlockLines(us, bs);
    assert lines == head + rest;
    var t := BlockStart(bs, b);
    var m := 1 + |bs[b].members|;
    if b == 0 {
      PrefixSlice(head, rest);
      assert lines[t..t + m] == (head + rest)[0..|head|];
    } else {
      BlockGroupShift(us, bs, b);
      BlockLinesLayout(us, bs[1..], b - 1);
      BlockStartShift(bs, b);
      var t' := BlockStart(bs[1..], b - 1);
      assert bs[1..][b - 1] == bs[b];
      SliceAfter(head, rest, t', m, BlockGroup(us, bs, b));
      assert t == |head| + t';
    }
  }

  /** A run found at `i` in `c` is found `|a|` places further on in `a + c`. */
  lemma SliceAfter(a: seq<Line>, c: seq<Line>, i: nat, m: nat, g: seq<Line>)
    requires i + m <= |c| && c[i..i + m] == g
    ensures |a| + i + m <= |a + c| && (a + c)[|a| + i..|a| + i + m] == g
  {
    ShiftedSlice(a, c, i, i + m);
  }

  lemma PrefixSlice(a: seq<Line>, c: seq<Line>)
    ensures (a + c)[0..|a|] == a
  {
  }

  /** Dropping the first block shifts every later block's group down by one place. */
  lemma BlockGroupShift(us: seq<UniformResource>, bs: seq<BlockResource>, b: nat)
    requires MembersInRange(us, bs)
    requires 1 <= b < |bs|
    ensures MembersInRange(us, bs[1..])
    ensures BlockGroup(us, bs[1..], b - 1) == BlockGroup(us, bs, b)
  {
    assert bs[1..][b - 1] == bs[b];
  }

  /** `getActiveUniformBlocks`. */
  function ActiveUniformBlocks(r: Resources): (lines: seq<Line>)
    requires MembersInRange(r.uniforms, r.blocks)
    ensures |lines| >= 1 && lines[0] == Title("Uniform Blocks")
    ensures |r.blocks| == 0 ==> lines == [Title("Uniform Blocks"), NoneMarker]
    ensures |r.blocks| > 0 ==> |lines| == 1 + BlockStart(r.blocks, |r.blocks|)
  {
    BlockLinesLength(r.uniforms, r.blocks);
    [Title("Uniform Blocks")] + if |r.blocks| <= 0 then [NoneMarker] else BlockLines(r.uniforms, r.blocks)
  }

  /**
   * The block report's layout: after the title, block `b`'s group of lines
   * (its title, then its own member lines) starts at `1 + BlockStart(bs, b)`
   * and ends where block `b + 1`'s starts; with `UniformBlocksEnd`, the
   * groups, in block order, fill the report exactly.
   */
  lemma UniformBlocksLayout(r: Resources, b: nat)
    requires MembersInRange(r.uniforms, r.blocks)
    requires b < |r.blocks|
    ensures var lines := ActiveUniformBlocks(r);
      var t := 1 + BlockStart(r.blocks, b);
      var m := 1 + |r.blocks[b].members|;
      && t + m <= |lines|
      && lines[t..t + m] == BlockGroup(r.uniforms, r.blocks, b)
      && t + m == 1 + BlockStart(r.blocks, b + 1)
  {
    BlockLinesLayout(r.uniforms, r.blocks, b);
    var lines := ActiveUniformBlocks(r);
    var inner := BlockLines(r.uniforms, r.blocks);
    var title := [Title("Uniform Blocks")];
    assert lines == title + inner;
    var t := BlockStart(r.blocks, b);
    var m := 1 + |r.blocks[b].members|;
    ShiftedSlice(title, inner, t, t + m);
    assert lines[1 + t..1 + t + m] == (title + inner)[|title| + t..|title| + t + m];
  }

  /** Exactly the last block's group of lines ends the block report. */
  lemma UniformBlocksEnd(r: Resources, b: nat)
    requires MembersInRange(r.uniforms, r.blocks)
    requires b < |r.blocks|
    ensures b + 1 == |r.blocks| <==> 1 + BlockStart(r.blocks, b + 1) == |ActiveUniformBlocks(r)|
  {
    if b + 1 < |r.blocks| {
      BlockStartGrows(r.blocks, b + 1, |r.blocks|);
    }
  }

  /** Later blocks start strictly later. */
  lemma {:induction false} BlockStartGrows(bs: seq<BlockResource>, a: nat, c: nat)
    requires a < c <= |bs|
    ensures BlockStart(bs, a) < BlockStart(bs, c)
    decreases c
  {
    if a < c - 1 {
      BlockStartGrows(bs, a, c - 1);
    }
  }

  /** Block reports never contain the NONE marker. */
  lemma {:induction false} BlockLinesHaveNoMarker(us: seq<UniformResource>, bs: seq<BlockResource>)
    requires MembersInRange(us, bs)
    ensures NoneMarker !in BlockLines(us, bs)
    decreases |bs|
  {
    if |bs| > 0 {
      BlockLinesHaveNoMarker(us, bs[1..]);
    }
  }

  /**
   * Every block's title and every member of every block, numbered by its
   * position in the block, is listed; `UniformBlocksLayout` places each
   * member directly under its own block's title.
   */
  lemma {:induction false} BlockMemberListed(us: seq<UniformResource>, bs: seq<BlockResource>, b: nat, j: nat)
    requires MembersInRange(us, bs)
    requires b < |bs| && j < |bs[b].members|
    ensures BlockTitle(bs[b].name) in BlockLines(us, bs)
    ensures var k := bs[b].members[j];
      MemberLine(k, j, us[k].name, TypeString(us[k].glType)) in BlockLines(us, bs)
    decreases b
  {
    assert forall m | 0 <= m < |bs[0].members| :: bs[0].members[m] < |us|;
    var ms := MemberLines(us, bs[0].members);
    var lines := [BlockTitle(bs[0].name)] + ms + BlockLines(us, bs[1..]);
    if b == 0 {
      assert lines[1 + j] == ms[j];
    } else {
      BlockMemberListed(us, bs[1..], b - 1, j);
      assert bs[1..][b - 1] == bs[b];
    }
  }

  /** The uniform-block report shows NONE exactly when there are no blocks. */
  lemma UniformBlocksNoneIff(r: Resources)
    requires MembersInRange(r.uniforms, r.blocks)
    ensures NoneMarker in ActiveUniformBlocks(r) <==> |r.blocks| == 0
  {
    if |r.blocks| > 0 {
      BlockLinesHaveNoMarker(r.uniforms, r.blocks);
    }
  }

  /** The flat report never names a uniform that belongs to a block (names being unique). */
  lemma FlatReportOmitsBlockMember(r: Resources, k: nat)
    requires forall x, y | 0 <= x < y < |r.uniforms| :: r.uniforms[x].name != r.uniforms[y].name
    requires k < |r.uniforms| && r.uniforms[k].blockIndex != -1
    ensures forall l | l in ActiveUniforms(r) :: !(l.UniformLine? && l.name == r.uniforms[k].name)
  {
    var flat := ActiveUniforms(r);
    forall l | l in flat && l.UniformLine?
      ensures l.name != r.uniforms[k].name
    {
      var i :| 0 <= i < |flat| && flat[i] == l;
      assert i > 0 && flat[i] in flat[1..];
      var k' :| 0 <= k' < |r.uniforms| && r.uniforms[k'].blockIndex == -1 && l == UniformLineOf(r.uniforms[k']);
      assert k' != k;
    }
  }

  /**
   * A uniform that belongs to a block is listed in the block report and is
   * absent from the flat report (uniform names are unique within the interface).
   */
  lemma BlockMemberOnlyInBlockReport(r: Resources, b: nat, j: nat)
    requires MembersInRange(r.uniforms, r.blocks)
    requires forall x, y | 0 <= x < y < |r.uniforms| :: r.uniforms[x].name != r.uniforms[y].name
    requires b < |r.blocks| && j < |r.blocks[b].members|
    requires r.uniforms[r.blocks[b].members[j]].blockIndex != -1
    ensures var k := r.blocks[b].members[j];
      var u := r.uniforms[k];
      && MemberLine(k, j, u.name, TypeString(u.glType)) in ActiveUniformBlocks(r)
      && forall l | l in ActiveUniforms(r) :: !(l.UniformLine? && l.name == u.name)
  {
    BlockMemberListed(r.uniforms, r.blocks, b, j);
    assert ActiveUniformBlocks(r)[1..] == BlockLines(r.uniforms, r.blocks);
    FlatReportOmitsBlockMember(r, r.blocks[b].members[j]);
  }

  /** With every uniform in a block, filtering leaves nothing. */
  lemma {:induction false} AllInBlocksFilterToNothing(us: seq<UniformResource>)
    requires forall k | 0 <= k < |us| :: us[k].blockIndex != -1
    ensures PlainUniformLines(us) == []
    decreases |us|
  {
    if |us| > 0 {
      AllInBlocksFilterToNothing(us[1..]);
    }
  }

  /**
   * When every uniform belongs to a block, the flat report is the title alone:
   * the NONE marker depends on the raw count, not on what survives filtering.
   */
  lemma AllInBlocksLeavesTitleOnly(r: Resources)
    requires |r.uniforms| > 0
    requires forall k | 0 <= k < |r.uniforms| :: r.uniforms[k].blockIndex != -1
    ensures ActiveUniforms(r) == [Title("Active Uniforms")]
  {
    AllInBlocksFilterToNothing(r.uniforms);
  }

  function InputLineOf(a: InputResource): Line {
    InputLine(a.location, a.name, TypeString(a.glType))
  }

  /** `getActiveAttribs`: one line per active vertex input, in interface order. */
  function ActiveAttribs(r: Resources): (lines: seq<Line>)
    ensures |lines| >= 2 && lines[0] == Title("Active Attributes")
    ensures NoneMarker in lines <==> |r.inputs| == 0
    ensures |r.inputs| > 0 ==>
      |lines| == |r.inputs| + 1 && forall i | 0 <= i < |r.inputs| :: lines[i + 1] == InputLineOf(r.inputs[i])
  {
    [Title("Active Attributes")] +
      if |r.inputs| <= 0 then [NoneMarker]
      else seq(|r.inputs|, i requires 0 <= i < |r.inputs| => InputLineOf(r.inputs[i]))
  }
}

=== FILE: lifecycle.dfy ===
/**
 * Whole-lifetime properties of the façade: any sequence of requests from a
 * fresh program keeps its state consistent, and the scenarios the façade's
 * callers rely on (compile, link, use, relink) behave as stated.
 */
module Lifecycle {
  import opened Wrappers
  import opened Extensions
  import opened Backend
  import opened Uniforms
  import Programs

  type Program = Programs.Program

  /** A linked program always has a program object. */
  predicate Consistent(p: Program) {
    p.linked ==> p.handle > 0
  }

  /** A call a client makes on the façade. */
  datatype Request =
    | Compile(filename: string, file: FileState)
    | CompileAs(filename: string, stage: ShaderType, file: FileState)
    | CompileSource(source: string, stage: ShaderType, filename: string)
    | Link
    | Validate
    | Use
    | Set(name: string, value: Value)

  /** The state after one request, answered by `d`. */
  function Apply(p: Program, req: Request, d: Driver): Program {
    match req
    case Compile(f, file) => Programs.CompileShader(p, f, file, d).program
    case CompileAs(f, stage, file) => Programs.CompileShaderFile(p, f, stage, file, d).program
    case CompileSource(src, stage, f) => Programs.CompileShaderSource(p, src, stage, f, d).program
    case Link => Programs.Link(p, d).program
    case Validate => Programs.Validate(p, d).program
    case Use => Programs.Use(p).program
    case Set(name, v) => SetUniform(p, name, v, d).program
  }

  /** The state after a sequence of requests, each with the driver's answers at that moment. */
  function Run(p: Program, reqs: seq<(Request, Driver)>): Program
    decreases |reqs|
  {
    if |reqs| == 0 then p else Run(Apply(p, reqs[0].0, reqs[0].1), reqs[1..])
  }

  /**
   * Every request keeps the program consistent and never drops an attached
   * stage; the program object changes only while it is not positive.
   */
  lemma ApplyPreserves(p: Program, req: Request, d: Driver)
    requires Consistent(p)
    ensures var q := Apply(p, req, d);
      && Consistent(q)
      && p.stages <= q.stages
      && (p.handle > 0 ==> q.handle == p.handle)
  {
  }

  /** Every state reachable from a fresh program is consistent, and stages only accumulate. */
  lemma {:induction false} RunPreserves(p: Program, reqs: seq<(Request, Driver)>)
    requires Consistent(p)
    ensures Consistent(Run(p, reqs))
    ensures p.stages <= Run(p, reqs).stages
    ensures p.handle > 0 ==> Run(p, reqs).handle == p.handle
    decreases |reqs|
  {
    if |reqs| > 0 {
      ApplyPreserves(p, reqs[0].0, reqs[0].1);
      RunPreserves(Apply(p, reqs[0].0, reqs[0].1), reqs[1..]);
    }
  }

  /** Linking before anything was compiled reports the missing program object. */
  lemma LinkBeforeCompileFails(d: Driver)
    ensures Programs.Link(Programs.NewProgram, d).result == Failure(Programs.NotInitialized)
    ensures Programs.Use(Programs.NewProgram).result == Failure(Programs.NotInitialized)
  {
  }

  /** A driver that hands out a usable program name and accepts every compile. */
  predicate Cooperative(d: Driver) {
    0 < d.createProgram < 0x8000_0000 && d.compileStatus
  }

  /**
   * Compiling a vertex and a fragment stage into a fresh program and linking
   * it yields a linked program with a positive handle holding both stages;
   * using it before the link reports the missing link.
   */
  lemma CompileCompileLink(vs: string, fs: string, d1: Driver, d2: Driver, d3: Driver)
    requires Cooperative(d1) && Cooperative(d2) && d3.linkStatus
    ensures var p1 := Programs.CompileShaderSource(Programs.NewProgram, vs, Vertex, "", d1);
      var p2 := Programs.CompileShaderSource(p1.program, fs, Fragment, "", d2);
      var p3 := Programs.Link(p2.program, d3);
      && p1.result.Success? && p2.result.Success? && p3.result.Success?
      && Programs.Use(p2.program).result == Failure(Programs.NotLinked)
      && p3.program.linked && p3.program.handle == d1.createProgram
      && p3.program.stages == {d1.createShader, d2.createShader}
      && Programs.Use(p3.program).result.Success?
  {
  }

  /** A missing file fails before a program object is created. */
  lemma MissingFileCreatesNothing(p: Program, filename: string, d: Driver)
    requires Lookup(Extension(filename)).Some?
    ensures var s := Programs.CompileShader(p, filename, Missing, d);
      s.program == p && s.result == Failure(Programs.FileNotFound(filename)) && s.calls == []
  {
  }

  /** An unreadable file fails only after the program object was created. */
  lemma AccessDeniedAfterCreation(p: Program, filename: string, stage: ShaderType, d: Driver)
    requires p.handle <= 0 && d.createProgram != 0
    ensures var s := Programs.CompileShaderFile(p, filename, stage, Unreadable, d);
      && s.result == Failure(Programs.AccessDenied(filename))
      && s.program.handle == ToGLint(d.createProgram) && s.program.handle != 0
      && s.program.stages == p.stages
  {
  }

  /**
   * Once linked, compiling one more stage and linking again does not clear
   * the location cache: the second link is a no-op, so a name cached before
   * keeps its old location and is not queried again.
   */
  lemma RelinkKeepsCachedLocations(p: Program, src: string, stage: ShaderType, name: string, d1: Driver, d2: Driver, d3: Driver)
    requires Consistent(p) && p.linked && name in p.uniformLocations
    requires d1.compileStatus
    ensures var c := Programs.CompileShaderSource(p, src, stage, "", d1);
      var l := Programs.Link(c.program, d2);
      var g := GetUniformLocation(l.program, name, d3);
      && c.result.Success?
      && l.calls == []
      && l.program.uniformLocations == p.uniformLocations
      && g.location == p.uniformLocations[name]
      && g.calls == []
  {
  }

  /** A failed link keeps the cache and the link flag as they were. */
  lemma FailedLinkKeepsCache(p: Program, d: Driver)
    requires !p.linked && p.handle > 0 && !d.linkStatus
    ensures var s := Programs.Link(p, d);
      && s.result.Failure? && !s.program.linked && s.program.uniformLocations == p.uniformLocations
  {
  }

  /** A successful first link empties the cache, so the next lookup queries the driver. */
  lemma FirstLinkForcesQuery(p: Program, name: string, d1: Driver, d2: Driver)
    requires !p.linked && p.handle > 0 && d1.linkStatus
    ensures var l := Programs.Link(p, d1);
      var g := GetUniformLocation(l.program, name, d2);
      g.location == d2.locate(name) && g.calls == [GlGetUniformLocation(p.handle, name)]
  {
  }
}

=== FILE: programs.dfy ===
/**
 * The shader-program façade (`glslu::Program`): lazy program creation,
 * per-stage compilation and attachment, linking, validation and activation.
 * Every operation is a pure transition from one `Program` value to the next,
 * returning the driver commands it issued and either success or the error
 * it raised; a failure can still carry a changed program (the program object
 * is created before the source is opened or compiled).
 */
module Programs {
  import opened Wrappers
  import opened Extensions
  import opened Backend
  import opened Text

  /**
   * The façade's state: the program object name (0, or not positive, until a
   * program object exists), whether a link succeeded, the uniform-location
   * cache, and the stage objects attached so far.
   */
  datatype Program = Program(
    handle: int,
    linked: bool,
    uniformLocations: map<string, int>,
    stages: set<GLuint>)

  /** A freshly constructed façade. */
  const NewProgram: Program := Program(0, false, map[], {})

  /** The exceptions the façade raises. */
  datatype Error =
    | UnrecognizedExtension(extension: string)
    | FileNotFound(filename: string)
    | ProgramCreationFailed
    | AccessDenied(filename: string)
    | CompileError(filename: string, log: string)
    | NotInitialized
    | LinkError(handle: int, log: string)
    | NotLinked
    | ValidationError(log: string)
  {
    /**
     * The exception's message text. The driver's log, when there is one, is
     * the message's last line, verbatim.
     */
    function Message(): (m: string)
      ensures (CompileError? || LinkError? || ValidationError?) ==>
        |m| > |log| && m[|m| - |log|..] == log && m[|m| - |log| - 1] == '\n'
    {
      match this
      case UnrecognizedExtension(ext) =>
        "Unrecognized shader extension: '" + ext + "'!\n\tExpected: " + ExpectedList()
      case FileNotFound(f) => "Could not find shader \"" + f + "\". Did it escape?"
      case ProgramCreationFailed => "Could not create shader program."
      case AccessDenied(f) => "Could not open \"" + f + "\", access denied! :("
      case CompileError(f, log) =>
        (if f != "" then "\"" + f + "\" could not be compiled!" else "Shader could not be compiled!") + "\n" + log
      case NotInitialized => "Program has not been initialized! (Have you attached shaders to it?)"
      case LinkError(h, log) => "Could not link Program[" + IntToString(h) + "]\n" + log
      case NotLinked => "Program has not been linked!"
      case ValidationError(log) => "Program did not validate: \n" + log
    }
  }

  /**
   * An unrecognised extension is reported by name, followed by every accepted
   * extension in table order.
   */
  lemma UnrecognizedExtensionMessage(ext: string)
    ensures UnrecognizedExtension(ext).Message() ==
      "Unrecognized shader extension: '" + ext + "'!\n\tExpected: " + ".vs, .vert, .fs, .frag, .gs, .geom, .tcs, .tes, .cs, .comp"
  {
    ExpectedListText();
  }

  /**
   * A compile error names its file (or says "Shader" when there is none) and
   * ends with a newline and the driver's log, verbatim.
   */
  lemma CompileErrorMessage(filename: string, log: string)
    ensures var m := CompileError(filename, log).Message();
      && |m| > |log|
      && m[|m| - |log|..] == log
      && m[|m| - |log| - 1] == '\n'
      && (filename != "" ==> m[0] == '"' && m[1..|filename| + 1] == filename)
      && (filename != "" ==> m[..|m| - |log| - 1] == "\"" + filename + "\" could not be compiled!")
      && (filename == "" ==> m[..|m| - |log| - 1] == "Shader could not be compiled!")
  {
    var m := CompileError(filename, log).Message();
    var head := if filename != "" then "\"" + filename + "\" could not be compiled!" else "Shader could not be compiled!";
    assert m == head + "\n" + log;
    assert m[|m| - |log|..] == log;
    assert m[..|m| - |log| - 1] == head;
    if filename != "" {
      assert head[1..|filename| + 1] == filename;
    }
  }

  /** A missing file is quoted by name right after "Could not find shader ". */
  lemma FileNotFoundMessage(filename: string)
    ensures var m := FileNotFound(filename).Message();
      && |m| > 23 + |filename|
      && m[..22] == "Could not find shader " && m[22] == '"'
      && m[23..23 + |filename|] == filename && m[23 + |filename|] == '"'
  {
    var m := FileNotFound(filename).Message();
    assert m == "Could not find shader \"" + filename + "\". Did it escape?";
    assert m[23..23 + |filename|] == filename;
  }

  /** A file that cannot be opened is quoted by name right after "Could not open ". */
  lemma AccessDeniedMessage(filename: string)
    ensures var m := AccessDenied(filename).Message();
      && |m| > 16 + |filename|
      && m[..15] == "Could not open " && m[15] == '"'
      && m[16..16 + |filename|] == filename && m[16 + |filename|] == '"'
  {
    var m := AccessDenied(filename).Message();
    assert m == "Could not open \"" + filename + "\", access denied! :(";
    assert m[16..16 + |filename|] == filename;
  }

  /**
   * A link error names the program object: its decimal handle sits between
   * "Program[" and "]", and reading those digits back gives the handle.
   */
  lemma LinkErrorMessage(h: int, log: string)
    ensures var m := LinkError(h, log).Message();
      var k := |IntToString(h)|;
      && |m| > 23 + k
      && m[..23] == "Could not link Program["
      && m[23..23 + k] == IntToString(h)
      && m[23 + k] == ']'
      && (h >= 0 ==> IsDigits(m[23..23 + k]) && DigitsValue(m[23..23 + k]) == h)
      && (h < 0 ==> m[23] == '-' && IsDigits(m[24..23 + k]) && DigitsValue(m[24..23 + k]) == -h)
  {
    var m := LinkError(h, log).Message();
    var digits := IntToString(h);
    var k := |digits|;
    var pre := "Could not link Program[";
    var post := "]\n" + log;
    assert m == pre + digits + post;
    assert |pre| == 23;
    assert m[..23] == pre;
    assert m[23..23 + k] == digits;
    assert m[23 + k] == post[0];
    if h < 0 {
      assert m[24..23 + k] == digits[1..];
    }
  }

  /** `suffix` is how `m` ends. */
  predicate EndsWith(m: string, suffix: string) {
    |suffix| <= |m| && m[|m| - |suffix|..] == suffix
  }

  /** The outcome of one operation: the next state, the result, and the commands issued. */
  datatype Step<T> = Step(program: Program, result: Result<T, Error>, calls: seq<Call>)

  predicate NoAttach(calls: seq<Call>) {
    forall i | 0 <= i < |calls| :: !calls[i].GlAttachShader?
  }

  predicate NoCreateProgram(calls: seq<Call>) {
    forall i | 0 <= i < |calls| :: calls[i] != GlCreateProgram
  }

  /** The enumerants of the stage objects created by `calls`, in order. */
  function ShadersCreated(calls: seq<Call>): seq<int>
    decreases |calls|
  {
    if |calls| == 0 then []
    else (if calls[0].GlCreateShader? then [calls[0].shaderType] else []) + ShadersCreated(calls[1..])
  }

  /** Stage objects created by two command runs back to back. */
  lemma {:induction false} ShadersCreatedAppend(a: seq<Call>, b: seq<Call>)
    ensures ShadersCreated(a + b) == ShadersCreated(a) + ShadersCreated(b)
    decreases |a|
  {
    if |a| == 0 {
      assert a + b == b;
    } else {
      var ab := a + b;
      assert ab[0] == a[0];
      assert ab[1..] == a[1..] + b;
      ShadersCreatedAppend(a[1..], b);
    }
  }

  /**
   * Lazy program creation: only when the handle is not positive, and the
   * creation fails when the driver hands out name 0.
   */
  function EnsureProgram(p: Program, d: Driver): (s: Step<()>)
    ensures s.program == p.(handle := s.program.handle)
    ensures p.handle > 0 ==> s == Step(p, Success(()), [])
    ensures p.handle <= 0 ==> s.calls == [GlCreateProgram] && s.program.handle == ToGLint(d.createProgram)
    ensures s.result.Failure? <==> p.handle <= 0 && d.createProgram == 0
    ensures s.result.Failure? ==> s.result.error == ProgramCreationFailed && s.program.handle == 0
    ensures s.result.Success? ==> s.program.handle != 0
    ensures ShadersCreated(s.calls) == []
  {
    assert ShadersCreated([GlCreateProgram]) == [] by {
      assert [GlCreateProgram][1..] == [];
    }
    if p.handle <= 0 then
      var h := ToGLint(d.createProgram);
      Step(p.(handle := h), if h == 0 then Failure(ProgramCreationFailed) else Success(()), [GlCreateProgram])
    else
      Step(p, Success(()), [])
  }

  /** The commands of one stage compilation create exactly one stage object, of the given type. */
  lemma StageCommandsCreateOne(code: int, shader: GLuint, source: string, handle: int)
    ensures var work := [GlCreateShader(code), GlShaderSource(shader, source), GlCompileShader(shader)];
      && ShadersCreated(work) == [code]
      && ShadersCreated(work + [GlAttachShader(handle, shader)]) == [code]
  {
    var work := [GlCreateShader(code), GlShaderSource(shader, source), GlCompileShader(shader)];
    var attach := [GlAttachShader(handle, shader)];
    assert ShadersCreated(work) == [code] by {
      assert work[1..][1..][1..] == [];
      assert ShadersCreated(work[1..][1..]) == [];
      assert ShadersCreated(work[1..]) == [];
    }
    assert ShadersCreated(attach) == [] by {
      assert attach[1..] == [];
    }
    ShadersCreatedAppend(work, attach);
  }

  /**
   * The commands of one stage compilation, after `pre`: nothing is attached
   * before the final attach, and the source is handed over and compiled.
   */
  lemma StageCalls(pre: seq<Call>, code: int, shader: GLuint, source: string, handle: int)
    requires pre == [] || pre == [GlCreateProgram]
    ensures var work := pre + [GlCreateShader(code), GlShaderSource(shader, source), GlCompileShader(shader)];
      var all := work + [GlAttachShader(handle, shader)];
      && NoAttach(work)
      && all[..|all| - 1] == work
      && GlShaderSource(shader, source) in work
      && GlCompileShader(shader) in work
  {
    var work := pre + [GlCreateShader(code), GlShaderSource(shader, source), GlCompileShader(shader)];
    assert (work + [GlAttachShader(handle, shader)])[..|work|] == work;
  }

  /**
   * `compileShaderSource`: create the program object if needed, create and
   * compile one stage object from `source`, and attach it only when it
   * compiled. `filename` labels the compile error ("" when there is none).
   */
  function CompileShaderSource(p: Program, source: string, stage: ShaderType, filename: string, d: Driver): (s: Step<()>)
    ensures s.program.linked == p.linked && s.program.uniformLocations == p.uniformLocations
    ensures p.handle > 0 ==> s.program.handle == p.handle
    ensures p.handle <= 0 ==> s.program.handle == ToGLint(d.createProgram)
    ensures s.result.Success? <==> (p.handle > 0 || d.createProgram != 0) && d.compileStatus
    ensures s.result.Failure? ==>
      && s.program.stages == p.stages
      && s.result.error == (if p.handle <= 0 && d.createProgram == 0 then ProgramCreationFailed
                            else CompileError(filename, d.InfoLog()))
    ensures s.result.Success? ==> s.program.stages == p.stages + {d.createShader}
    ensures s.result.Success? && d.createShader !in p.stages ==> |s.program.stages| == |p.stages| + 1
  {
    var e := EnsureProgram(p, d);
    if e.result.Failure? then e
    else
      var c := CompileStage(e.program, source, stage, filename, d);
      Step(c.program, c.result, e.calls + c.calls)
  }

  /**
   * The program object `compileShaderSource` creates: one only when none
   * exists, issued first; a failed creation issues nothing else.
   */
  lemma CompileSourceCreatesProgram(p: Program, source: string, stage: ShaderType, filename: string, d: Driver)
    ensures var s := CompileShaderSource(p, source, stage, filename, d);
      && (p.handle > 0 ==> NoCreateProgram(s.calls))
      && (p.handle <= 0 ==> |s.calls| >= 1 && s.calls[0] == GlCreateProgram)
      && (s.result.Failure? && s.result.error == ProgramCreationFailed ==> s.calls == [GlCreateProgram])
  {
    var e := EnsureProgram(p, d);
    if e.result.Success? {
      var c := CompileStage(e.program, source, stage, filename, d);
      assert (e.calls + c.calls)[|e.calls|..] == c.calls;
    }
  }

  /**
   * The stage object `compileShaderSource` compiles: once a program object
   * exists, exactly one stage object is created, of the requested stage.
   */
  lemma CompileSourceCreatesStage(p: Program, source: string, stage: ShaderType, filename: string, d: Driver)
    ensures var s := CompileShaderSource(p, source, stage, filename, d);
      && ((p.handle > 0 || d.createProgram != 0) ==> GlCreateShader(stage.Code()) in s.calls)
      && ShadersCreated(s.calls) == (if p.handle > 0 || d.createProgram != 0 then [stage.Code()] else [])
  {
    var e := EnsureProgram(p, d);
    if e.result.Success? {
      var c := CompileStage(e.program, source, stage, filename, d);
      ShadersCreatedAppend(e.calls, c.calls);
      CreatedIsIssued(e.calls + c.calls, stage.Code());
    }
  }

  /** A stage object counted as created was created by a command in the sequence. */
  lemma {:induction false} CreatedIsIssued(calls: seq<Call>, code: int)
    requires code in ShadersCreated(calls)
    ensures GlCreateShader(code) in calls
    decreases |calls|
  {
    if calls[0] != GlCreateShader(code) {
      CreatedIsIssued(calls[1..], code);
    }
  }

  /**
   * A failed `compileShaderSource` attaches nothing; a failed compilation
   * ends by handing over the source and then compiling it, and issues
   * nothing besides the creations before them.
   */
  lemma CompileFailureAttachesNothing(p: Program, source: string, stage: ShaderType, filename: string, d: Driver)
    ensures var s := CompileShaderSource(p, source, stage, filename, d);
      && (s.result.Failure? ==> NoAttach(s.calls))
      && (s.result.Failure? && s.result.error.CompileError? ==>
            && |s.calls| == (if p.handle <= 0 then 4 else 3)
            && s.calls[|s.calls| - 2..] == [GlShaderSource(d.createShader, source), GlCompileShader(d.createShader)])
  {
    var s := CompileShaderSource(p, source, stage, filename, d);
    var e := EnsureProgram(p, d);
    if e.result.Failure? {
      assert s.calls == [GlCreateProgram];
    } else if !d.compileStatus {
      var sh := d.createShader;
      var work := [GlCreateShader(stage.Code()), GlShaderSource(sh, source), GlCompileShader(sh)];
      if p.handle <= 0 {
        assert s.calls == [GlCreateProgram, GlCreateShader(stage.Code()), GlShaderSource(sh, source), GlCompileShader(sh)];
      } else {
        assert s.calls == work;
      }
    } else {
      assert s.result.Success?;
    }
  }

  /**
   * A successful `compileShaderSource` hands over the source, compiles it,
   * and only then attaches the stage object, as its last command; nothing
   * besides the creations comes before them.
   */
  lemma CompileSuccessAttachesLast(p: Program, source: string, stage: ShaderType, filename: string, d: Driver)
    ensures var s := CompileShaderSource(p, source, stage, filename, d);
      s.result.Success? ==>
        && |s.calls| == (if p.handle <= 0 then 5 else 4)
        && s.calls[|s.calls| - 3..] == [GlShaderSource(d.createShader, source), GlCompileShader(d.createShader),
                                        GlAttachShader(s.program.handle, d.createShader)]
        && NoAttach(s.calls[..|s.calls| - 1])
  {
    var s := CompileShaderSource(p, source, stage, filename, d);
    var e := EnsureProgram(p, d);
    if e.result.Success? && d.compileStatus {
      var sh := d.createShader;
      var h := e.program.handle;
      var work := [GlCreateShader(stage.Code()), GlShaderSource(sh, source), GlCompileShader(sh)];
      if p.handle <= 0 {
        assert s.calls == [GlCreateProgram, GlCreateShader(stage.Code()), GlShaderSource(sh, source), GlCompileShader(sh), GlAttachShader(h, sh)];
        assert s.calls[..|s.calls| - 1] == [GlCreateProgram] + work;
      } else {
        assert s.calls == [GlCreateShader(stage.Code()), GlShaderSource(sh, source), GlCompileShader(sh), GlAttachShader(h, sh)];
        assert s.calls[..|s.calls| - 1] == work;
      }
    }
  }

  /**
   * The part of `compileShaderSource` after the program object exists:
   * create and compile one stage object, attaching it only when it compiled.
   */
  function CompileStage(q: Program, source: string, stage: ShaderType, filename: string, d: Driver): (s: Step<()>)
    ensures s.result.Success? <==> d.compileStatus
    ensures s.result.Failure? ==> s.program == q && s.result.error == CompileError(filename, d.InfoLog())
    ensures s.result.Success? ==> s.program == q.(stages := q.stages + {d.createShader})
    ensures ShadersCreated(s.calls) == [stage.Code()]
  {
    StageCommandsCreateOne(stage.Code(), d.createShader, source, q.handle);
    var shader := d.createShader;
    var work := [GlCreateShader(stage.Code()), GlShaderSource(shader, source), GlCompileShader(shader)];
    if !d.compileStatus then
      Step(q, Failure(CompileError(filename, d.InfoLog())), work)
    else
      Step(q.(stages := q.stages + {shader}), Success(()), work + [GlAttachShader(q.handle, shader)])
  }

  /**
   * The driver as the compilation nested in `compileShader(filename, type)`
   * sees it: when the first creation gave a negative handle, the nested one
   * creates the program object again and gets the second name.
   */
  function NestedDriver(p: Program, d: Driver): (r: Driver)
    ensures r.(createProgram := d.createProgram) == d
    ensures p.handle <= 0 && ToGLint(d.createProgram) < 0 ==> r.createProgram == d.createProgramAgain
    ensures p.handle > 0 || ToGLint(d.createProgram) >= 0 ==> r == d
  {
    if p.handle <= 0 && ToGLint(d.createProgram) < 0 then d.(createProgram := d.createProgramAgain) else d
  }

  /**
   * Compiling from a state whose program object was just created: with a
   * positive name the creation is not repeated; with a negative one the
   * whole compilation, creation included, happens again, with the driver's
   * second name.
   */
  lemma CompileSourceAfterCreation(p: Program, source: string, stage: ShaderType, filename: string, d: Driver)
    ensures var e := EnsureProgram(p, d);
      var n := NestedDriver(p, d);
      var c := CompileShaderSource(e.program, source, stage, filename, n);
      e.result.Success? ==>
        CompileShaderSource(p, source, stage, filename, n) ==
          if p.handle <= 0 && ToGLint(d.createProgram) < 0 then c
          else Step(c.program, c.result, e.calls + c.calls)
  {
    var e := EnsureProgram(p, d);
    var n := NestedDriver(p, d);
    if e.result.Success? {
      var k := CompileStage(e.program, source, stage, filename, n);
      if e.program.handle > 0 {
        assert EnsureProgram(e.program, n) == Step(e.program, Success(()), []);
        assert [] + k.calls == k.calls;
      } else {
        assert EnsureProgram(e.program, n) == EnsureProgram(p, n);
        assert e.program.(handle := ToGLint(n.createProgram)) == p.(handle := ToGLint(n.createProgram));
      }
    }
  }

  /**
   * `compileShader(filename, type)`: a missing file fails before anything
   * happens; otherwise the program object is created first, and only then is
   * the file opened, read whole and compiled.
   */
  function CompileShaderFile(p: Program, filename: string, stage: ShaderType, file: FileState, d: Driver): (s: Step<()>)
    ensures file.Missing? ==> s == Step(p, Failure(FileNotFound(filename)), [])
    ensures file.Unreadable? && p.handle <= 0 ==> s.program.handle == ToGLint(d.createProgram)
    ensures file.Readable? && p.handle <= 0 ==>
      s.program.handle == ToGLint(if ToGLint(d.createProgram) < 0 then d.createProgramAgain else d.createProgram)
    ensures file.Unreadable? ==>
      && s.program == p.(handle := s.program.handle)
      && s.result == Failure(if p.handle <= 0 && d.createProgram == 0 then ProgramCreationFailed else AccessDenied(filename))
    ensures file.Unreadable? ==> s.calls == (if p.handle <= 0 then [GlCreateProgram] else [])
    ensures file.Readable? ==>
      var c := CompileShaderSource(p, file.contents, stage, filename, NestedDriver(p, d));
      s.program == c.program && s.result == c.result
  {
    if file.Missing? then Step(p, Failure(FileNotFound(filename)), [])
    else
      var e := EnsureProgram(p, d);
      if e.result.Failure? then e
      else if file.Unreadable? then Step(e.program, Failure(AccessDenied(filename)), e.calls)
      else
        var c := CompileShaderSource(e.program, file.contents, stage, filename, NestedDriver(p, d));
        CompileSourceAfterCreation(p, file.contents, stage, filename, d);
        Step(c.program, c.result, e.calls + c.calls)
  }

  /**
   * The commands `compileShader(filename, type)` issues for a readable file
   * are those of compiling its text, except that a program object given a
   * negative name is created twice (the second creation happens inside the
   * compilation, and gets the driver's second name).
   */
  lemma CompileFileCommands(p: Program, filename: string, stage: ShaderType, file: FileState, d: Driver)
    ensures var s := CompileShaderFile(p, filename, stage, file, d);
      file.Readable? ==>
        s.calls == (if p.handle <= 0 && ToGLint(d.createProgram) < 0 then [GlCreateProgram] else [])
          + CompileShaderSource(p, file.contents, stage, filename, NestedDriver(p, d)).calls
  {
    if file.Readable? {
      CompileSourceAfterCreation(p, file.contents, stage, filename, d);
    }
  }

  /**
   * `compileShader(filename, type)` ends with a program object: one existed,
   * or the first creation gave a positive name, or it gave a negative one and
   * the creation repeated inside the compilation gave a non-zero name.
   */
  predicate ProgramObtained(p: Program, d: Driver) {
    p.handle > 0 || ToGLint(d.createProgram) > 0 || (ToGLint(d.createProgram) < 0 && d.createProgramAgain != 0)
  }

  /**
   * A name that narrows to a negative handle makes `compileShader(filename,
   * type)` create the program object twice for a readable file: the handle
   * it ends with is the second name, and the operation fails to create a
   * program exactly when that second name is 0.
   */
  lemma NegativeNameCreatesAgain(p: Program, filename: string, stage: ShaderType, file: FileState, d: Driver)
    requires p.handle <= 0 && ToGLint(d.createProgram) < 0 && file.Readable?
    ensures var s := CompileShaderFile(p, filename, stage, file, d);
      && |s.calls| >= 2 && s.calls[..2] == [GlCreateProgram, GlCreateProgram]
      && s.program.handle == ToGLint(d.createProgramAgain)
      && (s.result == Failure(ProgramCreationFailed) <==> d.createProgramAgain == 0)
      && (d.createProgramAgain == 0 ==> s.calls == [GlCreateProgram, GlCreateProgram])
  {
    var n := NestedDriver(p, d);
    var c := CompileShaderSource(p, file.contents, stage, filename, n);
    CompileFileCommands(p, filename, stage, file, d);
    CompileSourceCreatesProgram(p, file.contents, stage, filename, n);
    assert ([GlCreateProgram] + c.calls)[..2] == [GlCreateProgram, c.calls[0]];
  }

  /** Only a readable file gets a stage object, and it is of the requested stage. */
  lemma CompileFileCreatesStage(p: Program, filename: string, stage: ShaderType, file: FileState, d: Driver)
    ensures ShadersCreated(CompileShaderFile(p, filename, stage, file, d).calls) ==
      (if file.Readable? && ProgramObtained(p, d) then [stage.Code()] else [])
  {
    if file.Readable? {
      var pre: seq<Call> := if p.handle <= 0 && ToGLint(d.createProgram) < 0 then [GlCreateProgram] else [];
      var c := CompileShaderSource(p, file.contents, stage, filename, NestedDriver(p, d));
      CompileFileCommands(p, filename, stage, file, d);
      CompileSourceCreatesStage(p, file.contents, stage, filename, NestedDriver(p, d));
      assert ShadersCreated(pre) == [] by {
        if pre != [] {
          assert pre[1..] == [];
        }
      }
      ShadersCreatedAppend(pre, c.calls);
    }
  }

  /**
   * `compileShader(filename)`: the stage is chosen by the file's extension;
   * an extension the table does not know fails before anything happens.
   */
  function CompileShader(p: Program, filename: string, file: FileState, d: Driver): (s: Step<()>)
    ensures s.program.linked == p.linked && s.program.uniformLocations == p.uniformLocations
    ensures p.stages <= s.program.stages
    ensures p.handle > 0 ==> s.program.handle == p.handle
    ensures Lookup(Extension(filename)).None? ==>
      s == Step(p, Failure(UnrecognizedExtension(Extension(filename))), [])
    ensures Lookup(Extension(filename)).Some? ==>
      s == CompileShaderFile(p, filename, Lookup(Extension(filename)).value, file, d)
  {
    var ext := Extension(filename);
    match Lookup(ext)
    case None => Step(p, Failure(UnrecognizedExtension(ext)), [])
    case Some(stage) => CompileShaderFile(p, filename, stage, file, d)
  }

  /**
   * `link`: a no-op once linked; fails when no program object exists; on a
   * successful link the uniform-location cache is emptied.
   */
  function Link(p: Program, d: Driver): (s: Step<()>)
    ensures s.program.handle == p.handle && s.program.stages == p.stages
    ensures p.linked ==> s == Step(p, Success(()), [])
    ensures s.result.Success? <==> p.linked || (p.handle > 0 && d.linkStatus)
    ensures s.result.Success? ==> s.program.linked
    ensures s.result.Success? && !p.linked ==> s.program.uniformLocations == map[]
    ensures s.result.Failure? ==> s.program == p
    ensures s.result.Failure? ==>
      s.result.error == (if p.handle <= 0 then NotInitialized else LinkError(p.handle, d.InfoLog()))
    ensures s.calls == (if !p.linked && p.handle > 0 then [GlLinkProgram(p.handle)] else [])
  {
    if p.linked then Step(p, Success(()), [])
    else if p.handle <= 0 then Step(p, Failure(NotInitialized), [])
    else if !d.linkStatus then Step(p, Failure(LinkError(p.handle, d.InfoLog())), [GlLinkProgram(p.handle)])
    else Step(p.(uniformLocations := map[], linked := true), Success(()), [GlLinkProgram(p.handle)])
  }

  /** `validate`: never changes the program; fails unless linked and the driver validates it. */
  function Validate(p: Program, d: Driver): (s: Step<()>)
    ensures s.program == p
    ensures s.result.Success? <==> p.linked && d.validateStatus
    ensures !p.linked ==> s.result == Failure(NotLinked) && s.calls == []
    ensures p.linked ==> s.calls == [GlValidateProgram(p.handle)]
    ensures p.linked && !d.validateStatus ==> s.result == Failure(ValidationError(d.InfoLog()))
  {
    if !p.linked then Step(p, Failure(NotLinked), [])
    else if !d.validateStatus then Step(p, Failure(ValidationError(d.InfoLog())), [GlValidateProgram(p.handle)])
    else Step(p, Success(()), [GlValidateProgram(p.handle)])
  }

  /**
   * `use`: the missing program object is reported before the missing link;
   * only when both exist is the program made current.
   */
  function Use(p: Program): (s: Step<()>)
    ensures s.program == p
    ensures s.result.Success? <==> p.handle > 0 && p.linked
    ensures p.handle <= 0 ==> s.result == Failure(NotInitialized)
    ensures p.handle > 0 && !p.linked ==> s.result == Failure(NotLinked)
    ensures s.calls == (if s.result.Success? then [GlUseProgram(p.handle)] else [])
  {
    if p.handle <= 0 then Step(p, Failure(NotInitialized), [])
    else if !p.linked then Step(p, Failure(NotLinked), [])
    else Step(p, Success(()), [GlUseProgram(p.handle)])
  }

  /**
   * A file named with one of the documented extensions is compiled as that
   * extension's stage, whatever the rest of its name is.
   */
  lemma CompileByExtension(p: Program, stem: string, ext: string, file: FileState, d: Driver)
    requires DocumentedStage(ext).Some?
    ensures CompileShader(p, stem + ext, file, d) ==
      CompileShaderFile(p, stem + ext, DocumentedStage(ext).value, file, d)
    ensures file.Readable? && ProgramObtained(p, d) ==>
      ShadersCreated(CompileShader(p, stem + ext, file, d).calls) == [DocumentedStage(ext).value.Code()]
  {
    LookupIsDocumented(ext);
    var j :| 0 <= j < |Table| && Table[j].extension == ext;
    TableRowsAreExtensions();
    ExtensionOfAppend(stem, ext);
    CompileFileCreatesStage(p, stem + ext, DocumentedStage(ext).value, file, d);
  }

  /** A message that carries a driver log ends with a newline and that log. */
  lemma LogEndsMessage(e: Error)
    requires e.CompileError? || e.LinkError? || e.ValidationError?
    ensures EndsWith(e.Message(), "\n" + e.log)
    ensures e.log == "" ==> EndsWith(e.Message(), "\n")
  {
    var m := e.Message();
    var k := |m| - |e.log|;
    assert m[k..] == e.log && m[k - 1] == '\n';
    assert m[k - 1..] == [m[k - 1]] + m[k..];
    assert m[|m| - |"\n" + e.log|..] == "\n" + e.log;
    if e.log == "" {
      assert "\n" + e.log == "\n";
    }
  }

  /**
   * A failed compile (other than a failed program creation) ends its message
   * with a newline and the driver's info log; with no log, with the newline.
   */
  lemma CompileFailureEndsWithInfoLog(p: Program, source: string, stage: ShaderType, filename: string, d: Driver)
    ensures var s := CompileShaderSource(p, source, stage, filename, d);
      s.result.Failure? && s.result.error != ProgramCreationFailed ==>
        EndsWith(s.result.error.Message(), "\n" + d.InfoLog())
        && (d.logLength <= 0 ==> EndsWith(s.result.error.Message(), "\n"))
  {
    LogEndsMessage(CompileError(filename, d.InfoLog()));
  }

  /** A failed link of an existing program ends its message with a newline and the driver's info log. */
  lemma LinkFailureEndsWithInfoLog(p: Program, d: Driver)
    ensures var s := Link(p, d);
      s.result.Failure? && p.handle > 0 ==>
        EndsWith(s.result.error.Message(), "\n" + d.InfoLog())
        && (d.logLength <= 0 ==> EndsWith(s.result.error.Message(), "\n"))
  {
    LogEndsMessage(LinkError(p.handle, d.InfoLog()));
  }

  /** A failed validation of a linked program ends its message with a newline and the driver's info log. */
  lemma ValidateFailureEndsWithInfoLog(p: Program, d: Driver)
    ensures var s := Validate(p, d);
      s.result.Failure? && p.linked ==>
        EndsWith(s.result.error.Message(), "\n" + d.InfoLog())
        && (d.logLength <= 0 ==> EndsWith(s.result.error.Message(), "\n"))
  {
    LogEndsMessage(ValidationError(d.InfoLog()));
  }

  /** An unrecognised extension leaves the program exactly as it was and issues nothing. */
  lemma UnrecognizedLeavesProgram(p: Program, filename: string, file: FileState, d: Driver)
    requires DocumentedStage(Extension(filename)).None?
    ensures CompileShader(p, filename, file, d) ==
      Step(p, Failure(UnrecognizedExtension(Extension(filename))), [])
  {
    LookupIsDocumented(Extension(filename));
  }
}

=== FILE: text.dfy ===
/** String helpers standing in for `std::stringstream` formatting. */
module Text {

  /** The decimal digit character for `d`. */
  function DigitChar(d: nat): (c: char)
    requires d < 10
    ensures '0' <= c <= '9'
    ensures c as int - '0' as int == d
  {
    (d + '0' as int) as char
  }

  predicate IsDigits(s: string) {
    forall i | 0 <= i < |s| :: '0' <= s[i] <= '9'
  }

  /** Decimal rendering of a natural number, as `operator<<` writes it (no padding). */
  function NatToString(n: nat): (r: string)
    ensures |r| >= 1 && IsDigits(r)
    ensures |r| > 1 ==> r[0] != '0'
    ensures r[0] == '0' <==> n == 0
    decreases n
  {
    if n < 10 then [DigitChar(n)] else NatToString(n / 10) + [DigitChar(n % 10)]
  }

  /** Reads back a string of decimal digits; the partner of `NatToString`. */
  function DigitsValue(s: string): nat
    requires IsDigits(s)
    decreases |s|
  {
    if |s| == 0 then 0 else DigitsValue(s[..|s| - 1]) * 10 + (s[|s| - 1] as int - '0' as int)
  }

  /** Decimal rendering is faithful: reading the digits back gives the number. */
  lemma {:induction false} NatToStringRoundTrip(n: nat)
    ensures DigitsValue(NatToString(n)) == n
    decreases n
  {
    if n >= 10 {
      NatToStringRoundTrip(n / 10);
      var s := NatToString(n);
      assert s[..|s| - 1] == NatToString(n / 10);
    }
  }

  /**
   * Decimal rendering of a signed integer, with a leading '-' when negative
   * and no leading zeros: the one canonical spelling of `i`.
   */
  function IntToString(i: int): (r: string)
    ensures i < 0 ==> |r| >= 2 && r[0] == '-' && IsDigits(r[1..]) && DigitsValue(r[1..]) == -i
    ensures i < 0 ==> r[1] != '0'
    ensures i >= 0 ==> IsDigits(r) && DigitsValue(r) == i
    ensures i >= 0 ==> |r| >= 1 && (|r| > 1 ==> r[0] != '0') && (r[0] == '0' <==> i == 0)
  {
    if i < 0 then
      NatToStringRoundTrip(-i);
      var r := "-" + NatToString(-i);
      assert r[1..] == NatToString(-i);
      r
    else
      NatToStringRoundTrip(i);
      NatToString(i)
  }

  /**
   * The text a loop writes when it emits `sep` before every element but the
   * first and then the element itself.
   */
  function Join(xs: seq<string>, sep: string): (r: string)
    decreases |xs|
  {
    if |xs| == 0 then ""
    else Join(xs[..|xs| - 1], sep) + (if |xs| - 1 != 0 then sep else "") + xs[|xs| - 1]
  }

  /** Joining one more element appends the separator (unless it is the first) and the element. */
  lemma JoinSnoc(xs: seq<string>, x: string, sep: string)
    ensures Join(xs + [x], sep) == Join(xs, sep) + (if |xs| != 0 then sep else "") + x
  {
    assert (xs + [x])[..|xs|] == xs;
  }
}

=== FILE: uniforms.dfy ===
/**
 * The uniform-location cache and the `setUniform` family: every setter looks
 * its name up through the cache, which asks the driver only for names it has
 * not seen (remembering -1 for names that are not active), and then issues
 * one write through the entry point matching the value's shape.
 */
module Uniforms {
  import opened Backend
  import opened Programs

  /** The outcome of a location lookup: the next state, the location, and the commands issued. */
  datatype Located = Located(program: Program, location: int, calls: seq<Call>)

  /** `getUniformLocation`: memoised name-to-location lookup. */
  function GetUniformLocation(p: Program, name: string, d: Driver): (l: Located)
    ensures name in p.uniformLocations ==>
      l.program == p && l.location == p.uniformLocations[name] && l.calls == []
    ensures name !in p.uniformLocations ==>
      l.location == d.locate(name) && l.calls == [GlGetUniformLocation(p.handle, name)]
    ensures l.program.handle == p.handle && l.program.linked == p.linked && l.program.stages == p.stages
    ensures l.program.uniformLocations.Keys == p.uniformLocations.Keys + {name}
    ensures l.program.uniformLocations[name] == l.location
    ensures forall n | n in p.uniformLocations :: l.program.uniformLocations[n] == p.uniformLocations[n]
  {
    if name in p.uniformLocations then
      Located(p, p.uniformLocations[name], [])
    else
      var loc := d.locate(name);
      Located(p.(uniformLocations := p.uniformLocations[name := loc]), loc, [GlGetUniformLocation(p.handle, name)])
  }

  /** A C++ `int`. */
  type Int32 = x: int | -0x8000_0000 <= x < 0x8000_0000

  /**
   * The argument shapes of the `setUniform` overloads. Integer payloads are
   * kept; floating-point payloads are not modelled.
   */
  datatype Value =
    | BoolValue(b: bool)
    | IntValue(i: Int32)
    | UIntValue(u: GLuint)
    | FloatValue
    | Floats2 | Floats3 | Floats4
    | Vec2Value | Vec3Value | Vec4Value
    | Mat3Value | Mat4Value

  /** How many scalar components a GLSL value of this shape holds. */
  function Components(v: Value): nat {
    match v
    case BoolValue(_) => 1
    case IntValue(_) => 1
    case UIntValue(_) => 1
    case FloatValue => 1
    case Floats2 => 2
    case Vec2Value => 2
    case Floats3 => 3
    case Vec3Value => 3
    case Floats4 => 4
    case Vec4Value => 4
    case Mat3Value => 9
    case Mat4Value => 16
  }

  /** How many scalar components a driver write uploads. */
  function WriteComponents(w: UniformWrite): nat {
    match w
    case Uniform1i(_) => 1
    case Uniform1ui(_) => 1
    case Uniform1f => 1
    case Uniform2f => 2
    case Uniform3f => 3
    case Uniform4f => 4
    case UniformMatrix3fv(_) => 9
    case UniformMatrix4fv(_) => 16
  }

  /** The driver write a setter ends in. */
  function WriteFor(v: Value): (w: UniformWrite)
    // the write uploads exactly as many components as the value holds
    ensures WriteComponents(w) == Components(v)
    // exactly booleans and integers go through an integer entry point
    ensures (w.Uniform1i? || w.Uniform1ui?) <==> (v.BoolValue? || v.IntValue? || v.UIntValue?)
    // integer payloads arrive unchanged, a boolean as 1 or 0
    ensures v.BoolValue? ==> w == Uniform1i(if v.b then 1 else 0)
    ensures v.IntValue? ==> w == Uniform1i(v.i)
    ensures v.UIntValue? ==> w == Uniform1ui(v.u)
    // matrices are uploaded column-major as stored: never transposed
    ensures (w.UniformMatrix3fv? || w.UniformMatrix4fv?) ==> !w.transpose
  {
    match v
    case BoolValue(b) => Uniform1i(if b then 1 else 0)
    case IntValue(i) => Uniform1i(i)
    case UIntValue(u) => Uniform1ui(u)
    case FloatValue => Uniform1f
    case Floats2 => Uniform2f
    case Floats3 => Uniform3f
    case Floats4 => Uniform4f
    case Vec2Value => Uniform2f
    case Vec3Value => Uniform3f
    case Vec4Value => Uniform4f
    case Mat3Value => UniformMatrix3fv(false)
    case Mat4Value => UniformMatrix4fv(false)
  }

  /**
   * The shape facts above pin the write down: any write that uploads the
   * value's component count through the right kind of entry point, keeps an
   * integer payload and does not transpose is the one the setter issues.
   */
  lemma ShapeDeterminesWrite(v: Value, w: UniformWrite)
    requires WriteComponents(w) == Components(v)
    requires (w.Uniform1i? || w.Uniform1ui?) <==> (v.BoolValue? || v.IntValue? || v.UIntValue?)
    requires v.BoolValue? ==> w == Uniform1i(if v.b then 1 else 0)
    requires v.IntValue? ==> w == Uniform1i(v.i)
    requires v.UIntValue? ==> w == Uniform1ui(v.u)
    requires (w.UniformMatrix3fv? || w.UniformMatrix4fv?) ==> !w.transpose
    ensures w == WriteFor(v)
  {
  }

  /** The outcome of a setter: the next state and the commands issued. */
  datatype Written = Written(program: Program, calls: seq<Call>)

  /** `setUniform(name, value)`: cached lookup, then exactly one write at that location. */
  function SetUniform(p: Program, name: string, v: Value, d: Driver): (w: Written)
    ensures w.program == GetUniformLocation(p, name, d).program
    ensures |w.calls| >= 1 && w.calls[|w.calls| - 1] == GlUniform(GetUniformLocation(p, name, d).location, WriteFor(v))
    ensures name in p.uniformLocations ==> w.calls == [GlUniform(p.uniformLocations[name], WriteFor(v))]
    ensures name !in p.uniformLocations ==>
      w.calls == [GlGetUniformLocation(p.handle, name), GlUniform(d.locate(name), WriteFor(v))]
  {
    var l := GetUniformLocation(p, name, d);
    Written(l.program, l.calls + [GlUniform(l.location, WriteFor(v))])
  }

  /** How many location queries for `name` a command sequence holds. */
  function QueryCount(calls: seq<Call>, name: string): nat
    decreases |calls|
  {
    if |calls| == 0 then 0
    else (if calls[0].GlGetUniformLocation? && calls[0].name == name then 1 else 0) + QueryCount(calls[1..], name)
  }

  lemma {:induction false} QueryCountAppend(a: seq<Call>, b: seq<Call>, name: string)
    ensures QueryCount(a + b, name) == QueryCount(a, name) + QueryCount(b, name)
    decreases |a|
  {
    if |a| > 0 {
      assert (a + b)[1..] == a[1..] + b;
      QueryCountAppend(a[1..], b, name);
    } else {
      assert a + b == b;
    }
  }

  /** One uniform assignment: the name, the value, and the driver's answers at that moment. */
  datatype Assignment = Assignment(name: string, value: Value, driver: Driver)

  /** A sequence of `setUniform` calls on one program, in order. */
  function SetUniforms(p: Program, xs: seq<Assignment>): (w: Written)
    ensures w.program.handle == p.handle && w.program.linked == p.linked && w.program.stages == p.stages
    decreases |xs|
  {
    if |xs| == 0 then Written(p, [])
    else
      var first := SetUniform(p, xs[0].name, xs[0].value, xs[0].driver);
      var rest := SetUniforms(first.program, xs[1..]);
      Written(rest.program, first.calls + rest.calls)
  }

  predicate Mentions(xs: seq<Assignment>, name: string) {
    exists i | 0 <= i < |xs| :: xs[i].name == name
  }

  lemma MentionsCons(xs: seq<Assignment>, name: string)
    requires |xs| > 0
    ensures Mentions(xs, name) <==> xs[0].name == name || Mentions(xs[1..], name)
  {
    if Mentions(xs, name) && xs[0].name != name {
      var i :| 0 <= i < |xs| && xs[i].name == name;
      assert xs[1..][i - 1].name == name;
    }
    if Mentions(xs[1..], name) {
      var i :| 0 <= i < |xs[1..]| && xs[1..][i].name == name;
      assert xs[i + 1].name == name;
    }
  }

  /** One setter queries `name` exactly when it sets `name` and `name` is not cached. */
  lemma QueryCountOfSet(p: Program, n: string, v: Value, d: Driver, name: string)
    ensures QueryCount(SetUniform(p, n, v, d).calls, name) == (if n == name && n !in p.uniformLocations then 1 else 0)
  {
    var w := SetUniform(p, n, v, d);
    if n in p.uniformLocations {
      assert w.calls[1..] == [];
    } else {
      assert w.calls[0] == GlGetUniformLocation(p.handle, n);
      assert w.calls[1..] == [w.calls[1]];
      assert !w.calls[1].GlGetUniformLocation?;
      assert w.calls[1..][1..] == [];
      assert QueryCount(w.calls[1..], name) == 0;
    }
  }

  /**
   * Over any run of setters, the driver is asked for a name's location at
   * most once: exactly once when the name is set and was not cached before,
   * never otherwise (a cached -1 included).
   */
  lemma {:induction false} AtMostOneQueryPerName(p: Program, xs: seq<Assignment>, name: string)
    ensures QueryCount(SetUniforms(p, xs).calls, name) ==
      (if name !in p.uniformLocations && Mentions(xs, name) then 1 else 0)
    ensures name in SetUniforms(p, xs).program.uniformLocations <==> name in p.uniformLocations || Mentions(xs, name)
    decreases |xs|
  {
    if |xs| > 0 {
      var x := xs[0];
      var first := SetUniform(p, x.name, x.value, x.driver);
      AtMostOneQueryPerName(first.program, xs[1..], name);
      QueryCountAppend(first.calls, SetUniforms(first.program, xs[1..]).calls, name);
      QueryCountOfSet(p, x.name, x.value, x.driver, name);
      MentionsCons(xs, name);
    }
  }

  /** Setting the same name twice costs at most one location query. */
  lemma SecondSetReusesCache(p: Program, name: string, v1: Value, v2: Value, d1: Driver, d2: Driver)
    ensures var first := SetUniform(p, name, v1, d1);
      var second := SetUniform(first.program, name, v2, d2);
      && QueryCount(first.calls + second.calls, name) <= 1
      && second.calls == [GlUniform(GetUniformLocation(p, name, d1).location, WriteFor(v2))]
  {
    var first := SetUniform(p, name, v1, d1);
    var second := SetUniform(first.program, name, v2, d2);
    var write := GlUniform(GetUniformLocation(p, name, d1).location, WriteFor(v1));
    assert second.calls == [GlUniform(GetUniformLocation(p, name, d1).location, WriteFor(v2))];
    QueryCountAppend(first.calls, second.calls, name);
    assert QueryCount(second.calls, name) == 0 by {
      assert second.calls[1..] == [];
    }
    if name !in p.uniformLocations {
      assert first.calls == [GlGetUniformLocation(p.handle, name)] + [write];
      QueryCountAppend([GlGetUniformLocation(p.handle, name)], [write], name);
      assert [write][1..] == [];
    } else {
      assert first.calls == [write];
      assert first.calls[1..] == [];
    }
  }
}

=== FILE: wrappers.dfy ===
/** The optional-value and value-or-error wrappers used throughout the model. */
module Wrappers {
  /** An optional value. */
  datatype Option<+T> = None | Some(value: T)

  /** Either a value or the error that was raised instead of producing one. */
  datatype Result<+R, +E> = Success(value: R) | Failure(error: E)
}
